=== FILE: README.md ===
# olx-scraping, modelled in Dafny

The system scrapes used-car listings from OLX Indonesia in four stages: each
stage is a luigi task that writes one file, and a later stage reads it.

- **Scrape**: opens the listing search for a keyword in a browser, clicks
  "load more" a bounded number of times, and saves the HTML.
- **Parse**: extracts seven text fields per listing card, or the sentinel
  `not found`, into a CSV file.
- **Transform**: reads the CSV back and cleans it column by column:
  - the price becomes a number;
  - the subtitle becomes year / lower km / upper km;
  - the URL is made absolute;
  - quotes are removed from the location;
  - the installment becomes rupiah;
  - relative posting times become dates.
- **Load**: inserts the cleaned rows into a database.

The project models the pure rules of each stage and the task chain that
drives them.

| file | module | what it models |
|---|---|---|
| `wrappers.dfy` | `Wrappers` | `Option` and `Result` |
| `text.dfy` | `Text` | the Python string operations the rules use: `strip`, `lower`, `in`, `split(sep, 1)`, `replace`, the first `\d+` / `\d+[.\d]*` match, decimal reading and writing |
| `fetcher.dfy` | `Fetcher` | the search URL built from a keyword, and the load-more loop (a method; each round's browser answer is a parameter) |
| `html_parser.dfy` | `HtmlParser` | the per-card extraction of `parse_html` over an abstract card, and the loop over cards (a method) |
| `normalizer.dfy` | `Normalizer` | every cleaning rule of `transform_data` as a function; the whole table as a reference function; `TransformData` as a method proved equal to it, with the year/mileage and posted-time passes as loops of their own and the other columns computed row by row |
| `pipeline.dfy` | `Pipeline` | the luigi chain: `requires()`, `output()`, the scheduler's walk, the worker's run; a `Workspace` class whose `Build` method updates the set of files on disk |

Modelling conventions:

- A CSV cell is `Option<string>`, where `None` is pandas' NaN. Reading back
  turns pandas' default NaN markers into `None`.
- A date is a day number counted from 1 January of year 1. The date format
  (`strftime('%d %b')`) is an abstract function parameter, and "today" is a
  parameter too.
- The model treats luigi's completion test as an explicit assumption: a task
  is complete exactly when the file its `output()` names exists.
- What a task's `run()` does is an abstract outcome: it writes its output,
  returns without writing it, or raises.

`extract_year_mileage` never checks that the lower mileage bound is at most
the upper one (engine.py:149-150): `Normalizer.YearMileageUnordered` shows
"9-1" giving the bounds 9 and 1.

## Model

| member | source | states |
|---|---|---|
| `Fetcher.Slug` | engine.py:21 | the slug has the keyword's length, contains no space, turns each space into '-' and keeps every other character |
| `Fetcher.SearchUrl` | engine.py:16-22 | the URL is the domain, then the used-car search path, then exactly the slug |
| `Fetcher.SlugRoundTrip` | engine.py:21 | for a keyword without '-', turning '-' back into spaces recovers the keyword |
| `Fetcher.SearchUrlInjective` | engine.py:21-22 | two keywords without '-' that give the same URL are equal |
| `Fetcher.SearchUrlHasNoSpace` | engine.py:21-22 | the URL contains no space |
| `Fetcher.ExpandListings` | engine.py:47-59 | at most 5 rounds; every counted click came from a round that found and clicked the button; a round without a button or with a timeout ends the loop right after it |
| `HtmlParser.GetText` | engine.py:87-88 | the text of a node read with `get_text(strip=True)` has no whitespace at either end, and a node without pieces gives the empty text |
| `HtmlParser.GetTextOne` | engine.py:87-88 | a node of a single piece gives that piece stripped |
| `HtmlParser.GetTextConcat` | engine.py:87-88 | the text of a node is the texts of its parts joined, so the whole text is the stripped pieces concatenated in order |
| `HtmlParser.ExtractRecord` | engine.py:86-119 | each field is the text of its sub-node read with `get_text(strip=True)` (the location and posted time stripped, the URL as is), or the sentinel when the sub-node is absent |
| `HtmlParser.ToRow` | engine.py:111-119 | the record's dictionary has exactly the seven column keys, and each key maps to its field |
| `HtmlParser.FromRow` | engine.py:111-119 | a dictionary gives back a record exactly when it has all seven column keys |
| `HtmlParser.RowRoundTrip` | engine.py:111-119 | reading the dictionary back by column name recovers the record |
| `HtmlParser.ParseHtml` | engine.py:76-127 | an unreadable file gives no table; otherwise the table has one record per card in page order, each the card's extraction, unless some card has a details node whose first child is not a text node; then the failure names the first such card |
| `HtmlParser.PostedTimeSentinel` | engine.py:95-97 | the posted time is the sentinel exactly when the details node or its span is missing, or the span's stripped text is the sentinel itself |
| `HtmlParser.FieldsStripped` | engine.py:86-109 | every field except the URL has no whitespace at either end, the sentinel included |
| `HtmlParser.EmptyCardAllSentinel` | engine.py:86-119 | a card with none of the sub-nodes gives seven sentinel fields |
| `Normalizer.ReadCell` | engine.py:132 | a field is missing exactly when it is one of pandas' default NaN markers, and otherwise keeps its text |
| `Normalizer.ReadRecord` | engine.py:111-132 | every column of a written record, looked up by name in the record's dictionary, reads back on its own: missing exactly when it is a NaN marker, otherwise its text |
| `Normalizer.SentinelSurvivesCsv` | engine.py:132 | the parser's sentinel reads back as text, not as missing |
| `Normalizer.Price` | engine.py:135-136 | a price exists exactly when the cell is present and holds a digit |
| `Normalizer.PriceOfLabel` | engine.py:135-136 | for any digit-free prefix, a run of digits and dots starting with a digit, and a suffix that does not continue the run, the price is that run read with its dots removed: the first match is taken, wherever it stands |
| `Normalizer.PriceFirstNumber` | engine.py:135-136 | "2 x Rp 150" costs 2: only the first number counts |
| `Normalizer.PriceOfRupiah` | engine.py:135-136 | "Rp " followed by any amount written with a dot every three digits reads back as that amount |
| `Normalizer.PriceExample` | engine.py:135-136 | "Rp 150.000.000" reads as 150000000 |
| `Normalizer.ExtractYearMileage` | engine.py:139-154 | raises exactly when the raw text contains " - " but its stripped, lower-cased form does not; all three parts are missing together, and exactly when the cell is missing, is "Data tidak ditemukan", or lacks " - " |
| `Normalizer.KmText` | engine.py:148 | the mileage text has no dot and no whitespace at either end, is no longer than the text after the year, takes every character from it, and keeps every character of it except whitespace, '.', 'k' and 'm' |
| `Normalizer.Bounds` | engine.py:149-152 | with a '-' the bounds are the text before and after its first '-', unstripped, and the lower bound holds no '-'; without one both bounds are the stripped text; no order between them is checked |
| `Normalizer.YearMileageParts` | engine.py:143-154 | a year and bounds read from a cell: the stripped, lower-cased value is the year, " - ", then the rest; the year holds no " - ", and no " - " starts before the year ends, so the year stops at the first one; and the bounds split that rest, once " km" and the dots are gone, at its first '-' (or are both the stripped rest) |
| `Normalizer.YearMileageOfRange` | engine.py:139-154 | "Y - L-U km" gives year Y and the bounds L and U without their dots |
| `Normalizer.YearMileageOfSingle` | engine.py:147-152 | "Y - M km" gives year Y and M without its dots as both bounds |
| `Normalizer.DottedRange` | engine.py:148-150 | "Y - A.B-C.D km" gives the bounds AB and CD |
| `Normalizer.DottedSingle` | engine.py:148-152 | "Y - A.B km" gives AB as both bounds |
| `Normalizer.YearMileageRangeExample` | engine.py:139-154 | "2020 - 5.000-8.000 km" gives 2020, 5000, 8000 |
| `Normalizer.YearMileageSingleExample` | engine.py:139-154 | "2021 - 10.000 km" gives 2021, 10000, 10000 |
| `Normalizer.YearMileageUnpackRaises` | engine.py:143-147 | " - M" contains the separator only before stripping, so unpacking the split raises |
| `Normalizer.YearMileageUnordered` | engine.py:149-150 | "2020 - 9-1 km" gives a lower bound above the upper one: the order is not checked |
| `Normalizer.YearMileageOfSentinel` | engine.py:144-145 | the sentinel has no " - ", so it gives no year and no bounds |
| `Normalizer.ParsedYearMileageNeverRaises` | engine.py:143-147 | the subtitle the parser extracts from any readable card never makes the unpacking raise |
| `Normalizer.StrippedNeverRaises` | engine.py:143-147 | on text without whitespace at either end, the unpacking never raises |
| `Normalizer.ListingUrl` | engine.py:162 | a URL is present exactly when the cell is, and it is the domain followed by the cell's text |
| `Normalizer.ListingUrlOfSentinel` | engine.py:162 | a card without a link gets the domain followed by "not found", not a missing URL |
| `Normalizer.Location` | engine.py:165 | the cleaned location has no double quote and keeps every other character of the input, each as often as the input has it |
| `Normalizer.LocationConcat` | engine.py:165 | cleaning a concatenation gives the concatenation of the cleaned parts, so the characters keep their order |
| `Normalizer.LocationIdempotent` | engine.py:165 | cleaning a location twice gives the same as once |
| `Normalizer.Installment` | engine.py:168-176 | an installment exists exactly when the cell is present, is not the sentinel and holds a digit; it is always a whole number of millions |
| `Normalizer.InstallmentOfLabel` | engine.py:172-174 | a label holding the number n (without dots) gives n million |
| `Normalizer.InstallmentExample` | engine.py:172-174 | "cicilan 2" gives 2000000 |
| `Normalizer.InstallmentDotsJoin` | engine.py:172-174 | the dots go before the digits are read, so "cicilan 2.5 jt" gives 25000000 |
| `Normalizer.InstallmentOfSentinel` | engine.py:169-170 | the sentinel and a missing cell give no installment |
| `Normalizer.CellText` | engine.py:180 | a present cell prints as its text, a missing one as "nan" |
| `Normalizer.DaysBefore` | engine.py:193-195 | the date n days back exists exactly when it is not before day 0; otherwise the subtraction raises |
| `Normalizer.PostedTime` | engine.py:179-198 | raising is only possible for "kemarin" or a long label with a number; the result is missing exactly for a long label with no number and neither relative word |
| `Normalizer.PostedToday` | engine.py:182-184 | a label containing "hari ini" gives today's date |
| `Normalizer.PostedYesterday` | engine.py:186-188 | "kemarin" without "hari ini" gives yesterday's date, or raises on day 0 |
| `Normalizer.PostedDaysAgo` | engine.py:180-195 | a long label whose lower-cased text is a digit-free prefix, a digit run d, then a suffix not starting with a digit, gives the date int(d) days back (leading zeros allowed), or raises when that is before day 0 |
| `Normalizer.PostedShort` | engine.py:190-198 | a label of at most seven characters without "kemarin" is kept, lower-cased |
| `Normalizer.PostedMissing` | engine.py:180-198 | a missing cell becomes the text "nan" |
| `Normalizer.PostedSentinel` | engine.py:190-196 | the sentinel becomes missing |
| `Normalizer.PostedDateInRange` | engine.py:179-198 | a present result is the lower-cased label or the date of a day between day 0 and today |
| `Normalizer.PostedDaysAgoExample` | engine.py:190-195 | "3 hari yang lalu" gives the date three days back |
| `Normalizer.PostedCapitalisedExample` | engine.py:180-195 | "03 Hari yang lalu" is lower-cased first and its number read as 3: the date three days back |
| `Normalizer.TransformTable` | engine.py:129-205 | a successful transformation keeps one row per parsed row |
| `Normalizer.TransformTableFailure` | engine.py:156-200 | the table fails exactly when it is empty or some row raises; it fails on the mileage exactly when some row's subtitle raises; the error is NoColumns exactly when the table is empty |
| `Normalizer.TransformTableRow` | engine.py:132-200 | in every cleaned row the title is kept, price, URL, location and installment are their rules applied to the parsed cell, the posted time is `transform_posted_time` of its cell, and year and bounds are `extract_year_mileage` of the subtitle |
| `Normalizer.AssembleRow` | engine.py:135-176 | one row's columns, given its year/mileage split: the title is kept; a price exists exactly when the cell holds a digit; the URL is present exactly when the cell is, with the domain in front; the location is present exactly when the cell is, without quotes; an installment exists exactly when the cell is present, not the sentinel and holds a digit, in whole millions; the three year/mileage parts are present together, exactly when the subtitle holds " - " |
| `Normalizer.ParsedTableNeverUnpackFails` | engine.py:143-158 | a table read back from the parser's own output never fails on the year/mileage column |
| `Normalizer.MileageColumn` | engine.py:156-158 | the column pass fails exactly when some row raises; otherwise row j holds `extract_year_mileage` of row j |
| `Normalizer.PostedColumn` | engine.py:200 | the column pass fails exactly when some row's date goes out of range; otherwise row j holds `transform_posted_time` of row j |
| `Normalizer.TransformData` | engine.py:129-205 | the column-by-column passes give exactly the reference transformation of the table, errors included |
| `Pipeline.Root` | scraps.py:94 | the build requests a Load task |
| `Pipeline.Requires` | scraps.py:30-75 | only Scrape has no requirement; every other task requires the task one step up the chain, with the same keyword and HTML path |
| `Pipeline.Input` | scraps.py:36-89 | a task reads a file exactly when it is not Scrape |
| `Pipeline.InputIsPredecessorPath` | scraps.py:36-89 | Parse reads the HTML path, Transform the parsed path, Load the transformed path |
| `Pipeline.ParametersThreaded` | scraps.py:46-75 | the parsed and transformed paths are passed up the chain unchanged |
| `Pipeline.Chain` | scraps.py:30-75 | the chain from a task has one entry per level, starts with Scrape and ends with the task |
| `Pipeline.ChainLinks` | scraps.py:30-75 | along the chain, position equals depth, each task requires the one before it, and all tasks share keyword and HTML path |
| `Pipeline.RootChain` | scraps.py:94 | the requested Load leads to Scrape, Parse, Transform, Load with the configured parameters |
| `Pipeline.Output` | scraps.py:15-78 | each task's target (the four `output()` methods) is its own path parameter: the HTML, parsed, transformed and inserted paths |
| `Pipeline.Pending` | scraps.py:94 | nothing is pending exactly when the requested task's output exists; otherwise the tasks to run end with the requested one; none has its output on disk; they number at most the chain's length |
| `Pipeline.PendingFirstInput` | scraps.py:94 | the walk stops only at a complete task: the first pending task's input is on disk |
| `Pipeline.Execute` | scraps.py:94 | running never deletes a file, keeps what was logged before, and logs at most the pending tasks |
| `Pipeline.ExecuteLog` | scraps.py:94 | the new log entries are the first pending tasks, in order |
| `Pipeline.ExecuteTrace` | scraps.py:18-94 | with k the number of tasks run: the build succeeds exactly when all pending tasks ran and none raised; a failure names the k-th task, which raised; a blocked task is the next pending one and its input is missing; no task run before a failing last one raised, so a raising task stops the build |
| `Pipeline.ExecuteWritten` | scraps.py:18-94 | the files a run adds are exactly the outputs of the tasks it ran that wrote them |
| `Pipeline.PendingIsChainSuffix` | scraps.py:94 | the tasks to run are the last tasks of the chain, in chain order |
| `Pipeline.CompleteIsSkipped` | scraps.py:15-16 | a task whose output exists runs nothing, not even upstream |
| `Pipeline.FreshPending` | scraps.py:94 | with no file on disk all four tasks are pending, upstream first |
| `Pipeline.FreshBuildRunsAll` | scraps.py:94 | from an empty disk, when every task writes its output, the four tasks run in order and leave their four files |
| `Pipeline.BuildIdempotent` | scraps.py:94 | after a successful build that produced the requested file, building again runs nothing |
| `Pipeline.ExecuteWrites` | scraps.py:94 | when every task writes its output, a successful run logs exactly the pending tasks and leaves each one's output on disk |
| `Pipeline.SecondBuildRunsNothing` | scraps.py:94 | when every task writes its output, a second build runs nothing |
| `Pipeline.SilentParseBlocksTransform` | scraps.py:36-38 | a Parse that swallows its error is marked done, and the build then stops at Transform with only the HTML on disk |
| `Pipeline.Build` | scraps.py:94 | a build never deletes a file, runs at most the chain, and runs something exactly when the requested output is missing |
| `Pipeline.BuildFailureCauses` | scraps.py:18-94 | when only Parse can return silently, a build of any task blocks only at a Transform whose Parse returned silently |
| `Pipeline.Schedule` | scraps.py:94 | the scheduler's walk up the requirements returns exactly the pending tasks |
| `Pipeline.Workspace.Build` | scraps.py:94 | the files on disk and the run log after the build are what the reference run of the pending tasks gives from the old state |

## Left out

- Browser automation is not modelled: launching WebKit, navigating, filling in the location field, scrolling, waiting, and writing the page. Each load-more round's answer is a parameter. A navigation failure re-raised by `scrape` is a Scrape task that raises. So is any browser error other than a timeout inside the load-more loop, which the loop does not catch and `scrape` re-raises; the round answers of `ExpandListings` have no such outcome.
- HTML parsing and the search for the card sub-nodes are left to the library. A card is given by the texts of the sub-nodes the parser looks up.
- pandas type inference is not modelled: every column is a column of optional strings. The model therefore misses every error that comes from a column pandas reads as numbers or as all-missing. Examples:
  - a price or location column that is entirely missing or entirely numeric makes `.str` raise;
  - a URL column that is entirely missing or numeric makes `DOMAIN +` raise;
  - a numeric year_mileage cell makes `' - ' not in data` raise, where the model gives no year.
- Floating point is not modelled: price and installment are exact naturals, not floats.
- Character handling covers ASCII only: `lower()` changes only A–Z, and `\d` matches only the ASCII digits.
- TransformTable and PostedTime read the clock once per table: one `today` serves every row. The source calls `datetime.now()` for each row (engine.py:183, 187, 194), so a run that crosses midnight can date its rows against different days; the model does not capture that.
- `datetime.now()` and `strftime` are parameters. An n so large that `timedelta` itself overflows is covered by the same out-of-range error.
- An empty parsed table is modelled only as the NoColumns error. The model does not say which pandas exception that is.
- `load_data` (the database insertion, its audit file and its error rewrapping) is not part of this model. For the pipeline, Load is a task with an abstract outcome.
- dashboard.py is not part of this model.
- Luigi internals are out of scope: parameter parsing, environment defaults read through dotenv, the worker's process model and retries. Parameters come from a `Config` value.
- A raising task is modelled as writing nothing. Partial files a task leaves behind before raising are not modelled.

=== FILE: fetcher.dfy ===
/**
 * The fetch stage (`scrape` in engine.py): the search URL built from the
 * keyword, and the bounded "load more" expansion loop. The browser itself
 * is an external collaborator: what it answers in each round is a parameter.
 */
module Fetcher {
  import opened Text

  const Domain := "https://www.olx.co.id"
  const SearchPath := "/mobil-bekas_c198/q-"

  /** Rounds of scroll-and-click before the page is captured. */
  const MaxLoadMore := 5

  /** `keyword.replace(' ', '-')` */
  function Slug(keyword: string): (r: string)
    ensures |r| == |keyword| && ' ' !in r
    ensures forall i :: 0 <= i < |keyword| && keyword[i] != ' ' ==> r[i] == keyword[i]
    ensures forall i :: 0 <= i < |keyword| && keyword[i] == ' ' ==> r[i] == '-'
  {
    ReplaceChar(keyword, ' ', '-')
  }

  /** The listing-search URL for a keyword. */
  function SearchUrl(keyword: string): (url: string)
    ensures |url| == |Domain + SearchPath| + |keyword|
    ensures url[..|Domain + SearchPath|] == Domain + SearchPath
    ensures url[|Domain + SearchPath|..] == Slug(keyword)
  {
    Domain + SearchPath + Slug(keyword)
  }

  /** A keyword without hyphens is recovered from its slug, so distinct such keywords give distinct URLs. */
  lemma SlugRoundTrip(keyword: string)
    requires '-' !in keyword
    ensures ReplaceChar(Slug(keyword), '-', ' ') == keyword
  {
  }

  lemma SearchUrlInjective(k1: string, k2: string)
    requires '-' !in k1 && '-' !in k2 && SearchUrl(k1) == SearchUrl(k2)
    ensures k1 == k2
  {
    SlugRoundTrip(k1);
    SlugRoundTrip(k2);
  }

  lemma SearchUrlHasNoSpace(keyword: string)
    ensures ' ' !in SearchUrl(keyword)
  {
    var p := Domain + SearchPath;
    var u := SearchUrl(keyword);
    forall i | 0 <= i < |u| ensures u[i] != ' ' {
      if i >= |p| {
        assert u[i] == u[|p|..][i - |p|];
      }
    }
  }

  /** What one round of the loop observes: the button was clicked, was absent, or timed out. */
  datatype Probe = Clicked | NoButton | TimedOut

  /**
   * The expansion loop: at most MaxLoadMore rounds; a round where the
   * "load more" button is absent, or where locating or clicking it times out,
   * ends the loop. `probe(i)` is the browser's answer in round i.
   * Returns the number of successful clicks and of rounds entered.
   */
  method ExpandListings(probe: nat -> Probe) returns (clicks: nat, rounds: nat)
    ensures clicks <= MaxLoadMore && rounds <= MaxLoadMore
    ensures forall i :: 0 <= i < clicks ==> probe(i) == Clicked
    ensures clicks < MaxLoadMore ==> probe(clicks) != Clicked && rounds == clicks + 1
    ensures clicks == MaxLoadMore ==> rounds == MaxLoadMore
  {
    clicks, rounds := 0, 0;
    for round := 0 to MaxLoadMore
      invariant clicks == round && rounds == round
      invariant forall i :: 0 <= i < clicks ==> probe(i) == Clicked
    {
      // scroll to the bottom and wait: no observable effect in the model
      rounds := rounds + 1;
      match probe(round)
      case Clicked =>
        clicks := clicks + 1;
      case NoButton =>
        return;
      case TimedOut =>
        return;
    }
  }
}

=== FILE: html_parser.dfy ===
/**
 * The parse stage (`parse_html` in engine.py). A listing card is modelled
 * by what the parser looks up in it: the texts of the sub-nodes it finds,
 * or None where the sub-node is absent. Locating the cards and their
 * sub-nodes in the HTML is left to the HTML library and is not modelled.
 */
module HtmlParser {
  import opened Wrappers
  import opened Text

  /** The sentinel written for a field whose sub-node is absent. */
  const NotFound := "not found"

  /** The column names of the parsed table. */
  const RawColumns: set<string> := {"title", "price", "listing_url", "location", "installment", "posted_time", "year_mileage"}

  /**
   * The `itemDetails` node: the text of its first child when that child is a
   * text node (None when it has no child or its first child is an element,
   * where `.strip()` raises), and the text of its first `span`, if any.
   */
  datatype Details = Details(firstChild: Option<string>, span: Option<string>)

  /**
   * One `itemBox` card. Sub-nodes read with `get_text(strip=True)` are given by
   * the sequence of their text pieces; `link` is the `href` of the first anchor.
   */
  datatype Card = Card(
    title: Option<seq<string>>,
    price: Option<seq<string>>,
    details: Option<Details>,
    subtitle: Option<seq<string>>,
    link: Option<string>,
    installment: Option<seq<string>>)

  /** One parsed row: seven texts, each the extracted text or the sentinel. */
  datatype RawRecord = RawRecord(
    title: string,
    price: string,
    listingUrl: string,
    location: string,
    installment: string,
    postedTime: string,
    yearMileage: string)

  datatype ParseError =
    | Unreadable              // the HTML artifact could not be opened
    | NotTextNode(card: nat)  // `contents[0].strip()` raised on this card

  /** `get_text(strip=True)`: every text piece stripped, empty ones dropped, the rest joined. */
  function GetText(pieces: seq<string>): (r: string)
    ensures Stripped(r)
    ensures pieces == [] ==> r == []
  {
    if pieces == [] then []
    else
      var head := Strip(pieces[0]);
      var rest := GetText(pieces[1..]);
      StrippedConcat(head, rest);
      if head == [] then rest else head + rest
  }

  /** The text of a node made of several parts is the texts of the parts, joined. */
  lemma {:induction false} GetTextConcat(a: seq<string>, b: seq<string>)
    decreases |a|
    ensures GetText(a + b) == GetText(a) + GetText(b)
  {
    if a == [] {
      assert a + b == b;
    } else {
      GetTextConcat(a[1..], b);
      ConcatTail(a, b);
      GetTextHead(a + b);
      GetTextHead(a);
      Associative(Strip(a[0]), GetText(a[1..]), GetText(b));
    }
  }

  lemma ConcatTail(a: seq<string>, b: seq<string>)
    requires a != []
    ensures (a + b)[0] == a[0] && (a + b)[1..] == a[1..] + b
  {
  }

  lemma Associative(x: string, y: string, z: string)
    ensures x + (y + z) == (x + y) + z
  {
  }

  /** The first piece adds its stripped text in front; an empty one adds nothing. */
  lemma GetTextHead(p: seq<string>)
    requires p != []
    ensures GetText(p) == Strip(p[0]) + GetText(p[1..])
  {
    if Strip(p[0]) == [] {
      assert Strip(p[0]) + GetText(p[1..]) == GetText(p[1..]);
    }
  }

  /** A node of a single piece reads as that piece stripped. */
  lemma GetTextOne(s: string)
    ensures GetText([s]) == Strip(s)
  {
    GetTextHead([s]);
    assert [s][1..] == [];
  }

  /** The text of a `get_text(strip=True)` sub-node, or the sentinel when it is absent. */
  function TextOrSentinel(node: Option<seq<string>>): string {
    match node
    case Some(pieces) => GetText(pieces)
    case None => NotFound
  }

  /** A card on which the extraction does not raise. */
  predicate Readable(c: Card) {
    c.details.None? || c.details.value.firstChild.Some?
  }

  /**
   * The record built for one card: each field is the text of its sub-node,
   * or the sentinel when the sub-node is absent.
   */
  function ExtractRecord(c: Card): (r: RawRecord)
    requires Readable(c)
    ensures r.title == (if c.title.Some? then GetText(c.title.value) else NotFound)
    ensures r.price == (if c.price.Some? then GetText(c.price.value) else NotFound)
    ensures r.listingUrl == (if c.link.Some? then c.link.value else NotFound)
    ensures c.details.None? ==> r.location == NotFound && r.postedTime == NotFound
    ensures c.details.Some? ==> r.location == Strip(c.details.value.firstChild.value)
    ensures c.details.Some? ==>
      r.postedTime == (if c.details.value.span.Some? then Strip(c.details.value.span.value) else NotFound)
    ensures r.installment == (if c.installment.Some? then GetText(c.installment.value) else NotFound)
    ensures r.yearMileage == (if c.subtitle.Some? then GetText(c.subtitle.value) else NotFound)
  {
    RawRecord(
      title := TextOrSentinel(c.title),
      price := TextOrSentinel(c.price),
      listingUrl := if c.link.Some? then c.link.value else NotFound,
      location := if c.details.Some? then Strip(c.details.value.firstChild.value) else NotFound,
      installment := TextOrSentinel(c.installment),
      postedTime :=
        if c.details.Some? && c.details.value.span.Some? then Strip(c.details.value.span.value)
        else NotFound,
      yearMileage := TextOrSentinel(c.subtitle))
  }

  /** The record as the dictionary appended to the table: one key per column, each holding its field. */
  function ToRow(r: RawRecord): (row: map<string, string>)
    ensures row.Keys == RawColumns
    ensures row["title"] == r.title && row["price"] == r.price && row["listing_url"] == r.listingUrl
    ensures row["location"] == r.location && row["installment"] == r.installment
    ensures row["posted_time"] == r.postedTime && row["year_mileage"] == r.yearMileage
  {
    map[
      "title" := r.title, "price" := r.price, "listing_url" := r.listingUrl,
      "location" := r.location, "installment" := r.installment,
      "posted_time" := r.postedTime, "year_mileage" := r.yearMileage]
  }

  /** Reads a record back from a dictionary by column name; None when a column is absent. */
  function FromRow(row: map<string, string>): (r: Option<RawRecord>)
    ensures r.Some? <==> RawColumns <= row.Keys
  {
    if RawColumns <= row.Keys then
      Some(RawRecord(row["title"], row["price"], row["listing_url"], row["location"],
        row["installment"], row["posted_time"], row["year_mileage"]))
    else None
  }

  /** The dictionary loses nothing: reading each column back by name gives the record again. */
  lemma RowRoundTrip(r: RawRecord)
    ensures FromRow(ToRow(r)) == Some(r)
  {
  }

  /**
   * Parses the cards of a page, in page order. `page` is None when the HTML
   * artifact cannot be opened. Any exception is caught by the function, so a
   * Failure stands for "message printed, nothing written".
   */
  method ParseHtml(page: Option<seq<Card>>) returns (res: Result<seq<RawRecord>, ParseError>)
    ensures page.None? ==> res == Failure(Unreadable)
    ensures res.Success? <==> page.Some? && forall j :: 0 <= j < |page.value| ==> Readable(page.value[j])
    ensures res.Success? ==> |res.value| == |page.value|
    ensures res.Success? ==> forall j :: 0 <= j < |res.value| ==> res.value[j] == ExtractRecord(page.value[j])
    ensures page.Some? && res.Failure? ==>
      res.error.NotTextNode? && res.error.card < |page.value| && !Readable(page.value[res.error.card])
      && forall j :: 0 <= j < res.error.card ==> Readable(page.value[j])
  {
    if page.None? {
      return Failure(Unreadable);
    }
    var cards := page.value;
    var data: seq<RawRecord> := [];
    var i := 0;
    while i < |cards|
      invariant 0 <= i <= |cards| && |data| == i
      invariant forall j :: 0 <= j < i ==> Readable(cards[j]) && data[j] == ExtractRecord(cards[j])
    {
      if !Readable(cards[i]) {
        return Failure(NotTextNode(i));
      }
      data := data + [ExtractRecord(cards[i])];
      i := i + 1;
    }
    return Success(data);
  }

  /** The posted time is the sentinel exactly when the details node or its span is missing, or the span says so. */
  lemma PostedTimeSentinel(c: Card)
    requires Readable(c)
    ensures ExtractRecord(c).postedTime == NotFound <==>
      c.details.None? || c.details.value.span.None? || Strip(c.details.value.span.value) == NotFound
  {
  }

  /** Every field but the URL is free of surrounding whitespace (the sentinel included). */
  lemma FieldsStripped(c: Card)
    requires Readable(c)
    ensures var r := ExtractRecord(c);
      Stripped(r.title) && Stripped(r.price) && Stripped(r.location)
      && Stripped(r.installment) && Stripped(r.postedTime) && Stripped(r.yearMileage)
  {
    assert Stripped(NotFound);
  }

  /** A card with no sub-node at all still yields a full record: every field is the sentinel. */
  lemma EmptyCardAllSentinel()
    ensures ExtractRecord(Card(None, None, None, None, None, None))
      == RawRecord(NotFound, NotFound, NotFound, NotFound, NotFound, NotFound, NotFound)
  {
  }
}

=== FILE: normalizer.dfy ===
/**
 * The normalize stage (`transform_data` in engine.py): the parsed table is
 * read back from CSV and cleaned column by column. A cell is an
 * `Option<string>`, None standing for pandas' NaN.
 */
module Normalizer {
  import opened Wrappers
  import opened Text
  import opened HtmlParser
  import Fetcher

  type Cell = Option<string>

  /** The strings that pandas' `read_csv` reads as NaN by default. */
  const NaMarkers: set<string> := {
    "", "#N/A", "#N/A N/A", "#NA", "-1.#IND", "-1.#QNAN", "-NaN", "-nan", "1.#IND",
    "1.#QNAN", "<NA>", "N/A", "NA", "NULL", "NaN", "None", "n/a", "nan", "null"}

  /** The marker the year/mileage rule treats like a missing value. */
  const DataNotFound := "Data tidak ditemukan"

  /** Installments are quoted in millions of rupiah. */
  const InstallmentUnit := 1000000

  /** Day numbers count days from 1 January of year 1; this is 31 December 9999. */
  const MaxDay := 3652058

  /** The days `datetime` can represent: the clock always reads one of them. */
  predicate ValidDay(d: int) {
    0 <= d <= MaxDay
  }

  /** A parsed row as read back from the CSV artifact. */
  datatype ParsedRow = ParsedRow(
    title: Cell,
    price: Cell,
    listingUrl: Cell,
    location: Cell,
    installment: Cell,
    postedTime: Cell,
    yearMileage: Cell)

  /** A cleaned row, in the column order of the cleaned artifact. */
  datatype CleanRow = CleanRow(
    title: Cell,
    price: Option<nat>,
    listingUrl: Cell,
    location: Cell,
    installment: Option<nat>,
    postedTime: Cell,
    year: Cell,
    lowerKm: Cell,
    upperKm: Cell)

  datatype YearMileage = YearMileage(year: Cell, lowerKm: Cell, upperKm: Cell)

  const NoYearMileage := YearMileage(None, None, None)

  /** The exceptions `transform_data` can raise on a cell. */
  datatype TransformError =
    | MileageUnpack   // `year, km_text = ...split(" - ", 1)` finds no separator
    | DateOutOfRange  // the number of days reaches before year 1
    | NoColumns       // a page without cards leaves a file with no columns to clean

  // ---------------------------------------------------------------- reading back

  /** `c` is what `read_csv` gives for the written text `s`: missing exactly for a NaN marker, otherwise the text. */
  predicate ReadsBack(c: Cell, s: string) {
    (c.None? <==> s in NaMarkers) && (c.Some? ==> c.value == s)
  }

  /** One CSV field as `read_csv` returns it. */
  function ReadCell(s: string): (c: Cell)
    ensures ReadsBack(c, s)
  {
    if s in NaMarkers then None else Some(s)
  }

  /**
   * One written record as `read_csv` returns it: the record's dictionary is
   * written as a CSV line and each column is read back by name on its own.
   */
  function ReadRecord(r: RawRecord): (row: ParsedRow)
    ensures ReadsBack(row.title, r.title) && ReadsBack(row.price, r.price)
    ensures ReadsBack(row.listingUrl, r.listingUrl) && ReadsBack(row.location, r.location)
    ensures ReadsBack(row.installment, r.installment) && ReadsBack(row.postedTime, r.postedTime)
    ensures ReadsBack(row.yearMileage, r.yearMileage)
  {
    var d := ToRow(r);
    ParsedRow(ReadCell(d["title"]), ReadCell(d["price"]), ReadCell(d["listing_url"]), ReadCell(d["location"]),
      ReadCell(d["installment"]), ReadCell(d["posted_time"]), ReadCell(d["year_mileage"]))
  }

  /** The parser's sentinel survives the CSV round trip as text, never as NaN. */
  lemma SentinelSurvivesCsv()
    ensures ReadCell(NotFound) == Some(NotFound)
  {
  }

  // ---------------------------------------------------------------- price

  lemma {:induction false} HasDigitWithoutDots(s: string)
    ensures HasDigit(RemoveAll(s, ".")) <==> HasDigit(s)
  {
    var r := RemoveAll(s, ".");
    RemoveAllChar(s, '.');
    if HasDigit(s) {
      var i :| 0 <= i < |s| && IsDigit(s[i]);
      assert s[i] in s;
      var j :| 0 <= j < |r| && r[j] == s[i];
    }
    if HasDigit(r) {
      var j :| 0 <= j < |r| && IsDigit(r[j]);
      assert r[j] in r;
      var i :| 0 <= i < |s| && s[i] == r[j];
    }
  }

  lemma DigitsWithoutDots(m: string)
    requires forall i :: 0 <= i < |m| ==> InRun(m[i], true)
    ensures AllDigits(RemoveAll(m, "."))
  {
    var r := RemoveAll(m, ".");
    RemoveAllChar(m, '.');
    forall i | 0 <= i < |r| ensures IsDigit(r[i]) {
      assert r[i] in r;
      var j :| 0 <= j < |m| && m[j] == r[i];
    }
  }

  /** `price.str.extract(r'(\d+[.\d]*)')`, dots removed, as a number. */
  function Price(cell: Cell): (r: Option<nat>)
    ensures r.Some? <==> cell.Some? && HasDigit(cell.value)
  {
    match cell
    case None => None
    case Some(s) =>
      match FirstRun(s, true)
      case None => None
      case Some(m) =>
        DigitsWithoutDots(m);
        Some(DecimalValue(RemoveAll(m, ".")))
  }

  /** The last three digits of n, zero-padded. */
  function Pad3(r: nat): (p: string)
    requires r < 1000
    ensures |p| == 3 && AllDigits(p)
  {
    [DigitChar(r / 100), DigitChar(r / 10 % 10), DigitChar(r % 10)]
  }

  /** A rupiah amount written with a dot between each group of three digits. */
  function Grouped(n: nat): (g: string)
    ensures |g| > 0 && IsDigit(g[0])
    ensures forall i :: 0 <= i < |g| ==> InRun(g[i], true)
  {
    if n < 1000 then Decimal(n) else Grouped(n / 1000) + "." + Pad3(n % 1000)
  }

  lemma Pad3Value(r: nat)
    requires r < 1000
    ensures DecimalValue(Pad3(r)) == r
  {
    var p := Pad3(r);
    ThreeDigitsValue(p);
    HundredsTensUnits(r);
  }

  /** A three-digit text read in base ten. */
  lemma ThreeDigitsValue(p: string)
    requires |p| == 3 && AllDigits(p)
    ensures DecimalValue(p) == (DigitValue(p[0]) * 10 + DigitValue(p[1])) * 10 + DigitValue(p[2])
  {
    assert p[..|p| - 1] == p[..2] && p[..2][..1] == p[..1] && p[..1][..0] == [];
    assert DecimalValue(p[..1]) == DigitValue(p[0]);
  }

  lemma HundredsTensUnits(r: nat)
    requires r < 1000
    ensures (r / 100 * 10 + r / 10 % 10) * 10 + r % 10 == r
  {
    var q := r / 10;
    assert r == 10 * q + r % 10;
    assert q == 10 * (r / 100) + q % 10;
  }

  lemma {:induction false} GroupedValue(n: nat)
    ensures AllDigits(RemoveAll(Grouped(n), "."))
    ensures DecimalValue(RemoveAll(Grouped(n), ".")) == n
  {
    if n < 1000 {
      RemoveAllAbsent(Decimal(n), ".");
      DecimalRoundTrip(n);
    } else {
      var p := Pad3(n % 1000);
      GroupedValue(n / 1000);
      GroupedWithoutDots(n);
      var h := RemoveAll(Grouped(n / 1000), ".");
      DecimalValueAppend(h, p);
      Pad3Value(n % 1000);
      assert Pow10(3) == 1000;
    }
  }

  /** Removing the dots of a grouped number removes them group by group. */
  lemma GroupedWithoutDots(n: nat)
    requires n >= 1000
    ensures RemoveAll(Grouped(n), ".") == RemoveAll(Grouped(n / 1000), ".") + Pad3(n % 1000)
  {
    var g := Grouped(n / 1000);
    var p := Pad3(n % 1000);
    assert Grouped(n) == g + ("." + p);
    RemoveAllConcat(g, "." + p, '.');
    assert "." + p == ['.'] + p;
    RemoveAllConcat(['.'], p, '.');
    RemoveAllAbsent(p, ".");
    assert RemoveAll(['.'], ".") == [];
  }

  /**
   * The price is the first run of digits and dots, wherever it stands: a
   * digit-free prefix, the run `d`, then anything that does not continue it.
   */
  lemma PriceOfLabel(p: string, d: string, q: string)
    requires !HasDigit(p)
    requires |d| > 0 && IsDigit(d[0]) && forall i :: 0 <= i < |d| ==> InRun(d[i], true)
    requires q == [] || !InRun(q[0], true)
    ensures AllDigits(RemoveAll(d, ".")) && Price(Some(p + d + q)) == Some(DecimalValue(RemoveAll(d, ".")))
  {
    FirstRunOf(p, d, q, true);
    DigitsWithoutDots(d);
  }

  /** Only the first number counts: "2 x Rp 150" costs 2. */
  lemma PriceFirstNumber()
    ensures Price(Some("2" + " x Rp 150")) == Some(2)
  {
    assert !HasDigit("");
    PriceOfLabel("", "2", " x Rp 150");
    assert "" + "2" + " x Rp 150" == "2" + " x Rp 150";
    RemoveAllAbsent("2", ".");
    assert DecimalValue("2") == 2 by {
      assert "2"[..0] == "";
    }
  }

  /** Reading a price written as "Rp 150.000.000" gives back the amount. */
  lemma {:induction false} PriceOfRupiah(n: nat)
    ensures Price(Some("Rp " + Grouped(n))) == Some(n)
  {
    var g := Grouped(n);
    assert !HasDigit("Rp ");
    PriceOfLabel("Rp ", g, []);
    assert "Rp " + g + [] == "Rp " + g;
    GroupedValue(n);
  }

  lemma GroupedExample()
    ensures Grouped(150000000) == "150.000.000"
  {
    assert Grouped(150000) == "150.000" by {
      assert Decimal(1) == "1";
      assert Decimal(15) == "15";
      assert Decimal(150) == "150";
      assert Pad3(0) == "000";
    }
    assert Pad3(0) == "000";
  }

  /** "Rp 150.000.000" */
  lemma PriceExample()
    ensures Price(Some("Rp " + "150.000.000")) == Some(150000000)
  {
    PriceOfRupiah(150000000);
    GroupedExample();
  }

  // ---------------------------------------------------------------- year and mileage

  /**
   * The mileage text after " km" and the dots are removed and the rest
   * stripped: it keeps every character of `rest` but whitespace, '.', 'k' and
   * 'm', and takes no character from anywhere else.
   */
  function KmText(rest: string): (r: string)
    ensures '.' !in r && |r| <= |rest| && Stripped(r)
    ensures forall c :: c in r ==> c in rest
    ensures forall c :: c in rest && !IsSpace(c) && c !in ".km" ==> c in r
  {
    var noKm := RemoveAll(rest, " km");
    assert "." == ['.'];
    RemoveAllChar(noKm, '.');
    RemoveAllKeeps(rest, " km");
    StripKeepsChars(RemoveAll(noKm, "."));
    Strip(RemoveAll(noKm, "."))
  }

  /** `extract_year_mileage`: year, lower and upper bound of the mileage. */
  function ExtractYearMileage(cell: Cell): (r: Result<YearMileage, TransformError>)
    ensures r.Failure? <==>
      cell.Some? && cell.value != DataNotFound && Contains(cell.value, " - ")
      && !Contains(Lower(Strip(cell.value)), " - ")
    ensures r.Failure? ==> r.error == MileageUnpack
    ensures r.Success? ==>
      (r.value.year.None? <==> r.value.lowerKm.None?) && (r.value.lowerKm.None? <==> r.value.upperKm.None?)
    ensures r.Success? && r.value.year.None? <==>
      cell.None? || cell.value == DataNotFound || !Contains(cell.value, " - ")
  {
    match cell
    case None => Success(NoYearMileage)
    case Some(data) =>
      if data == DataNotFound then Success(NoYearMileage)
      else
        var dataStr := Lower(Strip(data));
        if !Contains(data, " - ") then Success(NoYearMileage)
        else
          match SplitOnce(dataStr, " - ")
          case None => Failure(MileageUnpack)
          case Some((year, rest)) =>
            var (lower, upper) := Bounds(KmText(rest));
            Success(YearMileage(Some(year), Some(lower), Some(upper)))
  }

  /** `lower_km, upper_km = km_text.split('-', 1)`, or both `km_text.strip()` when there is no '-'. */
  function Bounds(km: string): (r: (string, string))
    ensures SplitsAtDash(km, r.0, r.1)
    ensures '-' in km ==> |r.0| + 1 + |r.1| == |km|
  {
    BoundsSplitAtDash(km);
    BoundsSplit(km)
  }

  function BoundsSplit(km: string): (string, string) {
    match SplitOnce(km, "-")
    case Some((lower, upper)) => (lower, upper)
    case None => (Strip(km), Strip(km))
  }

  lemma BoundsSplitAtDash(km: string)
    ensures SplitsAtDash(km, BoundsSplit(km).0, BoundsSplit(km).1)
  {
    if '-' in km {
      DashContained(km);
      var (lower, upper) := SplitOnce(km, "-").value;
      if '-' in lower {
        DashContained(lower);
      }
    } else {
      CharNotContained(km, '-');
    }
  }

  lemma DashContained(s: string)
    requires '-' in s
    ensures Contains(s, "-")
  {
    var k :| 0 <= k < |s| && s[k] == '-';
    assert OccursAt(s, "-", k);
    ContainsIff(s, "-");
  }

  /**
   * With a '-' the bounds are the text before and after its first one, not
   * stripped; without, both are the stripped text. No order is checked.
   */
  predicate SplitsAtDash(km: string, lower: string, upper: string) {
    ('-' in km ==> lower + "-" + upper == km && '-' !in lower)
    && ('-' !in km ==> lower == upper == Strip(km))
  }

  /**
   * A year read from a cell is the text before the first " - " of the
   * stripped, lower-cased value, and the bounds split what follows it, once
   * " km" and the dots are gone.
   */
  lemma YearMileageParts(data: string, year: string, lower: string, upper: string)
    requires ExtractYearMileage(Some(data)) == Success(YearMileage(Some(year), Some(lower), Some(upper)))
    ensures Contains(data, " - ") && !Contains(year, " - ")
    ensures |year| + 3 <= |Lower(Strip(data))|
    ensures Lower(Strip(data)) == year + " - " + Lower(Strip(data))[|year| + 3..]
    ensures forall j :: 0 <= j < |year| ==> !OccursAt(Lower(Strip(data)), " - ", j)
    ensures SplitsAtDash(KmText(Lower(Strip(data))[|year| + 3..]), lower, upper)
  {
    var v := Lower(Strip(data));
    var (y, rest) := SplitOnce(v, " - ").value;
    assert y == year && v == year + " - " + rest;
    assert v[|year| + 3..] == rest;
  }

  predicate MileageChars(s: string) {
    forall i :: 0 <= i < |s| ==> InRun(s[i], true)
  }

  lemma MileageCharsNoSpace(s: string)
    requires MileageChars(s)
    ensures NoSpace(s) && '-' !in s && ' ' !in s && '.' !in RemoveAll(s, ".")
    ensures NoUpper(s)
  {
    RemoveAllChar(s, '.');
  }

  /** A subtitle "Y - L-U km" is already stripped and lower-case. */
  lemma SubtitleNormalised(y: string, rest: string)
    requires |y| > 0 && AllDigits(y) && NoUpper(rest) && |rest| > 0 && !IsSpace(rest[|rest| - 1])
    ensures var data := y + " - " + rest; Lower(Strip(data)) == data
  {
    var data := y + " - " + rest;
    assert data[0] == y[0] && data[|data| - 1] == rest[|rest| - 1];
    StripUnchanged(data);
    SubtitleNoUpper(y, rest);
    LowerUnchanged(data);
  }

  lemma SubtitleNoUpper(y: string, rest: string)
    requires AllDigits(y) && NoUpper(rest)
    ensures NoUpper(y + " - " + rest)
  {
    assert NoUpper(y) && NoUpper(" - ");
    NoUpperConcat(y, " - ");
    NoUpperConcat(y + " - ", rest);
  }

  /** The text "L-U" of a range has neither spaces nor upper-case letters. */
  lemma RangeText(l: string, u: string)
    requires MileageChars(l) && MileageChars(u)
    ensures NoUpper(l + "-" + u) && ' ' !in l + "-" + u
  {
    MileageCharsNoSpace(l);
    MileageCharsNoSpace(u);
    assert NoUpper("-");
    NoUpperConcat(l, "-");
    NoUpperConcat(l + "-", u);
  }

  /** Removing the dots of "L-U" removes them from each bound. */
  lemma RangeWithoutDots(l: string, u: string)
    ensures RemoveAll(l + "-" + u, ".") == RemoveAll(l, ".") + "-" + RemoveAll(u, ".")
  {
    assert l + "-" + u == l + ("-" + u);
    RemoveAllConcat(l, "-" + u, '.');
    RemoveAllConcat("-", u, '.');
    RemoveAllAbsent("-", ".");
  }

  /** Removing " km" and the dots from "L-U km" leaves the bounds joined by '-'. */
  lemma KmTextOfRange(l: string, u: string)
    requires MileageChars(l) && MileageChars(u)
    ensures KmText(l + "-" + u + " km") == RemoveAll(l, ".") + "-" + RemoveAll(u, ".")
  {
    var km0 := l + "-" + u;
    RangeText(l, u);
    RemoveAllBeforeSuffix(km0, " km");
    RangeWithoutDots(l, u);
    DigitsWithoutDots(l);
    DigitsWithoutDots(u);
    DigitRangeStripped(RemoveAll(l, "."), RemoveAll(u, "."));
  }

  lemma DigitRangeStripped(l: string, u: string)
    requires AllDigits(l) && AllDigits(u)
    ensures Strip(l + "-" + u) == l + "-" + u
  {
    var km := l + "-" + u;
    assert km[0] == '-' || km[0] == l[0];
    assert km[|km| - 1] == '-' || km[|km| - 1] == u[|u| - 1];
    StripUnchanged(km);
  }

  /**
   * Reference reading of a listing subtitle "Y - L-U km": year Y and the two
   * bounds with their thousands dots removed.
   */
  lemma YearMileageOfRange(y: string, l: string, u: string)
    requires |y| > 0 && AllDigits(y) && MileageChars(l) && MileageChars(u)
    ensures ExtractYearMileage(Some(y + " - " + l + "-" + u + " km"))
      == Success(YearMileage(Some(y), Some(RemoveAll(l, ".")), Some(RemoveAll(u, "."))))
  {
    var km0 := l + "-" + u;
    var rest := km0 + " km";
    var data := y + " - " + rest;
    assert data == y + " - " + l + "-" + u + " km";
    assert data != DataNotFound by { assert data[0] == y[0]; }
    RangeText(l, u);
    assert NoUpper(" km");
    NoUpperConcat(km0, " km");
    SubtitleNormalised(y, rest);
    SubtitleSplit(y, rest);
    RangeBounds(l, u);
    YearMileageOfSplit(data, y, rest);
  }

  /** The bounds read from "L-U km" are L and U without their dots. */
  lemma RangeBounds(l: string, u: string)
    requires MileageChars(l) && MileageChars(u)
    ensures Bounds(KmText(l + "-" + u + " km")) == (RemoveAll(l, "."), RemoveAll(u, "."))
  {
    KmTextOfRange(l, u);
    DigitsWithoutDots(l);
    MileageCharsNoSpace(RemoveAll(l, "."));
    NoDashSplit(RemoveAll(l, "."), RemoveAll(u, "."));
  }

  lemma YearMileageOfSplit(data: string, year: string, rest: string)
    requires data != DataNotFound && Contains(data, " - ") && Lower(Strip(data)) == data
    requires SplitOnce(data, " - ") == Some((year, rest))
    ensures ExtractYearMileage(Some(data))
      == Success(YearMileage(Some(year), Some(Bounds(KmText(rest)).0), Some(Bounds(KmText(rest)).1)))
  {
  }

  /** A subtitle starting with a year is split right after the year. */
  lemma SubtitleSplit(y: string, rest: string)
    requires |y| > 0 && AllDigits(y)
    ensures Contains(y + " - " + rest, " - ")
    ensures SplitOnce(y + " - " + rest, " - ") == Some((y, rest))
  {
    var data := y + " - " + rest;
    assert OccursAt(data, " - ", |y|);
    ContainsIff(data, " - ");
    var t := y + " - "[..2];
    ContainsIff(t, " - ");
    forall k | 0 <= k && k + 3 <= |t| ensures !OccursAt(t, " - ", k) {
      assert t[k] == y[k];
      assert t[k..k + 3][0] == t[k];
    }
    SplitAtFirst(data, y, rest, " - ");
  }

  /** Splitting "L-U" at its first '-' when L has none. */
  lemma NoDashSplit(l: string, u: string)
    requires '-' !in l
    ensures Bounds(l + "-" + u) == (l, u)
  {
    CharNotContained(l, '-');
    assert "-"[..0] == [];
    assert l + "-"[..0] == l;
    SplitAtFirst(l + "-" + u, l, u, "-");
  }

  /** Splitting at the first separator recovers the parts around a separator the left part does not contain. */
  lemma SplitAtFirst(s: string, a: string, b: string, sep: string)
    requires |sep| > 0 && s == a + sep + b && !Contains(a + sep[..|sep| - 1], sep)
    ensures SplitOnce(s, sep) == Some((a, b))
  {
    assert OccursAt(s, sep, |a|);
    var k := FindFrom(s, sep, 0).value;
    if k < |a| {
      NoEarlierOccurrence(s, a, b, sep, k);
    }
    assert k == |a|;
    assert s[..k] == a && s[k + |sep|..] == b;
  }

  /** Before the end of `a`, `sep` cannot start in `a + sep + b` unless it occurs in `a` extended by all but its last character. */
  lemma NoEarlierOccurrence(s: string, a: string, b: string, sep: string, k: nat)
    requires |sep| > 0 && s == a + sep + b && !Contains(a + sep[..|sep| - 1], sep) && k < |a|
    ensures !OccursAt(s, sep, k)
  {
    var t := a + sep[..|sep| - 1];
    assert s[k..k + |sep|] == t[k..k + |sep|];
    if OccursAt(s, sep, k) {
      assert OccursAt(t, sep, k);
      ContainsIff(t, sep);
    }
  }

  /** Reference reading of a one-value subtitle "Y - M km": both bounds are M without its dots. */
  lemma YearMileageOfSingle(y: string, m: string)
    requires |y| > 0 && AllDigits(y) && MileageChars(m)
    ensures ExtractYearMileage(Some(y + " - " + m + " km"))
      == Success(YearMileage(Some(y), Some(RemoveAll(m, ".")), Some(RemoveAll(m, "."))))
  {
    var rest := m + " km";
    var data := y + " - " + rest;
    assert data == y + " - " + m + " km";
    assert data != DataNotFound by { assert data[0] == y[0]; }
    SingleText(m);
    SubtitleNormalised(y, rest);
    SubtitleSplit(y, rest);
    SingleBounds(m);
    YearMileageOfSplit(data, y, rest);
  }

  lemma SingleText(m: string)
    requires MileageChars(m)
    ensures NoUpper(m + " km")
  {
    MileageCharsNoSpace(m);
    assert NoUpper(" km");
    NoUpperConcat(m, " km");
  }

  lemma SingleBounds(m: string)
    requires MileageChars(m)
    ensures Bounds(KmText(m + " km")) == (RemoveAll(m, "."), RemoveAll(m, "."))
  {
    MileageCharsNoSpace(m);
    RemoveAllBeforeSuffix(m, " km");
    var m' := RemoveAll(m, ".");
    DigitsWithoutDots(m);
    MileageCharsNoSpace(m');
    StripUnchanged(m');
    CharNotContained(m', '-');
  }

  /** "5.000" without its dot. */
  lemma DotJoin(a: string, b: string)
    requires '.' !in a && '.' !in b
    ensures RemoveAll(a + "." + b, ".") == a + b
  {
    assert "." == ['.'];
    assert a + "." + b == a + ("." + b);
    RemoveAllConcat(a, "." + b, '.');
    RemoveAllConcat(".", b, '.');
    RemoveAllAbsent(a, ".");
    RemoveAllAbsent(b, ".");
    assert RemoveAll(".", ".") == "";
  }

  /** Thousands dots inside each bound disappear: "Y - A.B-C.D km" gives bounds AB and CD. */
  lemma DottedRange(y: string, a: string, b: string, c: string, d: string)
    requires |y| > 0 && AllDigits(y) && AllDigits(a) && AllDigits(b) && AllDigits(c) && AllDigits(d)
    ensures ExtractYearMileage(Some(y + " - " + (a + "." + b) + "-" + (c + "." + d) + " km"))
      == Success(YearMileage(Some(y), Some(a + b), Some(c + d)))
  {
    assert MileageChars(a + "." + b);
    assert MileageChars(c + "." + d);
    YearMileageOfRange(y, a + "." + b, c + "." + d);
    DotJoin(a, b);
    DotJoin(c, d);
  }

  /** A single dotted value "Y - A.B km" gives AB as both bounds. */
  lemma DottedSingle(y: string, a: string, b: string)
    requires |y| > 0 && AllDigits(y) && AllDigits(a) && AllDigits(b)
    ensures ExtractYearMileage(Some(y + " - " + (a + "." + b) + " km"))
      == Success(YearMileage(Some(y), Some(a + b), Some(a + b)))
  {
    assert MileageChars(a + "." + b);
    YearMileageOfSingle(y, a + "." + b);
    DotJoin(a, b);
  }

  /** "2020 - 5.000-8.000 km" */
  lemma YearMileageRangeExample()
    ensures ExtractYearMileage(Some("2020" + " - " + ("5" + "." + "000") + "-" + ("8" + "." + "000") + " km"))
      == Success(YearMileage(Some("2020"), Some("5" + "000"), Some("8" + "000")))
  {
    DottedRange("2020", "5", "000", "8", "000");
  }

  /** "2021 - 10.000 km" */
  lemma YearMileageSingleExample()
    ensures ExtractYearMileage(Some("2021" + " - " + ("10" + "." + "000") + " km"))
      == Success(YearMileage(Some("2021"), Some("10" + "000"), Some("10" + "000")))
  {
    DottedSingle("2021", "10", "000");
  }

  /** A raw value whose separator only survives before stripping makes the unpacking raise. */
  lemma YearMileageUnpackRaises(m: string)
    requires |m| > 0 && AllDigits(m)
    ensures ExtractYearMileage(Some(" - " + m)) == Failure(MileageUnpack)
  {
    var data := " - " + m;
    assert OccursAt(data, " - ", 0);
    ContainsIff(data, " - ");
    UnpackNormalised(m);
    UnpackSeparatorLost(m);
  }

  /** Stripping " - M" drops the leading space, and lower-casing keeps the rest. */
  lemma UnpackNormalised(m: string)
    requires |m| > 0 && AllDigits(m)
    ensures Lower(Strip(" - " + m)) == "- " + m
  {
    var t := "- " + m;
    UnpackStripped(m);
    assert NoUpper("- ");
    NoUpperConcat("- ", m);
    LowerUnchanged(t);
  }

  lemma UnpackStripped(m: string)
    requires |m| > 0 && AllDigits(m)
    ensures Strip(" - " + m) == "- " + m
  {
    DropLeadingSpace(m);
    StripLeadingSpace(" - " + m);
    DashPrefixEnds(m);
    StripUnchanged("- " + m);
  }

  lemma DropLeadingSpace(m: string)
    ensures (" - " + m)[0] == ' ' && (" - " + m)[1..] == "- " + m
  {
  }

  lemma DashPrefixEnds(m: string)
    requires |m| > 0 && AllDigits(m)
    ensures Stripped("- " + m) && "- " + m != []
  {
    var t := "- " + m;
    assert t[|t| - 1] == m[|m| - 1];
  }

  lemma UnpackSeparatorLost(m: string)
    requires |m| > 0 && AllDigits(m)
    ensures !Contains("- " + m, " - ")
  {
    var t := "- " + m;
    forall k | 0 <= k && k + 3 <= |t| ensures !OccursAt(t, " - ", k) {
      assert t[k..k + 3][0] == t[k] && t[k..k + 3][1] == t[k + 1];
    }
    ContainsIff(t, " - ");
  }

  /** The bounds are not ordered: "9-1" gives a lower bound above the upper one. */
  lemma YearMileageUnordered()
    ensures ExtractYearMileage(Some("2020" + " - " + "9" + "-" + "1" + " km"))
      == Success(YearMileage(Some("2020"), Some("9"), Some("1")))
  {
    YearMileageOfRange("2020", "9", "1");
    RemoveAllAbsent("9", ".");
    RemoveAllAbsent("1", ".");
  }

  /** The parser's sentinel has no " - ", so it yields no year and no mileage. */
  lemma YearMileageOfSentinel()
    ensures ExtractYearMileage(Some(NotFound)) == Success(NoYearMileage)
  {
    assert '-' !in NotFound;
    NoDashNoSeparator(NotFound);
  }

  lemma NoDashNoSeparator(s: string)
    requires '-' !in s
    ensures !Contains(s, " - ")
  {
    forall k | 0 <= k && k + 3 <= |s| ensures !OccursAt(s, " - ", k) {
      assert s[k..k + 3][1] == s[k + 1];
    }
    ContainsIff(s, " - ");
  }

  /**
   * Text the parser extracts never makes the unpacking raise: it is already
   * stripped, and lower-casing keeps " - ", so the test on the raw text and the
   * split of the stripped, lower-cased text agree.
   */
  lemma ParsedYearMileageNeverRaises(c: Card)
    requires Readable(c)
    ensures ExtractYearMileage(ReadRecord(ExtractRecord(c)).yearMileage).Success?
  {
    var raw := ExtractRecord(c).yearMileage;
    FieldsStripped(c);
    if raw !in NaMarkers {
      StrippedNeverRaises(raw);
    }
  }

  /** On stripped text the test for " - " and the split agree, so the unpacking cannot raise. */
  lemma StrippedNeverRaises(raw: string)
    requires Stripped(raw)
    ensures ExtractYearMileage(Some(raw)).Success?
  {
    StripUnchanged(raw);
    if Contains(raw, " - ") {
      LowerKeepsSeparator(raw);
      assert Contains(Lower(Strip(raw)), " - ");
    }
  }

  lemma LowerKeepsSeparator(s: string)
    requires Contains(s, " - ")
    ensures Contains(Lower(s), " - ")
  {
    ContainsIff(s, " - ");
    ContainsIff(Lower(s), " - ");
    var k :| OccursAt(s, " - ", k);
    assert Lower(" - ") == " - ";
    LowerKeepsOccurrence(s, " - ", k);
  }

  // ---------------------------------------------------------------- listing URL and location

  /** `DOMAIN + listing_url`: the relative URL appended to the site's domain. */
  function ListingUrl(cell: Cell): (r: Cell)
    ensures r.Some? <==> cell.Some?
    ensures r.Some? ==> |r.value| == |Fetcher.Domain| + |cell.value|
    ensures r.Some? ==> r.value[..|Fetcher.Domain|] == Fetcher.Domain && r.value[|Fetcher.Domain|..] == cell.value
  {
    match cell
    case None => None
    case Some(u) => Some(Fetcher.Domain + u)
  }

  /** A card without an anchor gets the domain followed by the sentinel, not a missing URL. */
  lemma ListingUrlOfSentinel()
    ensures ListingUrl(Some(NotFound)) == Some("https://www.olx.co.id" + "not found")
  {
  }

  /** `location.str.replace('"', '')` */
  function Location(cell: Cell): (r: Cell)
    ensures r.Some? <==> cell.Some?
    ensures r.Some? ==> '"' !in r.value && |r.value| <= |cell.value|
    ensures r.Some? ==> forall c :: c != '"' ==> (c in r.value <==> c in cell.value)
    ensures r.Some? ==> multiset(r.value) == multiset(cell.value)['"' := 0]
  {
    match cell
    case None => None
    case Some(s) =>
      assert "\"" == ['"'];
      RemoveAllChar(s, '"');
      RemoveAllCharCount(s, '"');
      Some(RemoveAll(s, "\""))
  }

  /** Quotes are removed piece by piece: the cleaning of a concatenation is the concatenation of the cleanings. */
  lemma LocationConcat(a: string, b: string)
    ensures Location(Some(a + b)).value == Location(Some(a)).value + Location(Some(b)).value
  {
    assert "\"" == ['"'];
    RemoveAllConcat(a, b, '"');
  }

  /** Cleaning the location twice changes nothing more. */
  lemma LocationIdempotent(cell: Cell)
    ensures Location(Location(cell)) == Location(cell)
  {
    if cell.Some? {
      RemoveAllAbsent(Location(cell).value, "\"");
    }
  }

  // ---------------------------------------------------------------- installment

  /** `transform_installment`: the first digit run, dots removed, in millions. */
  function Installment(cell: Cell): (r: Option<nat>)
    ensures r.Some? <==> cell.Some? && cell.value != NotFound && HasDigit(cell.value)
    ensures r.Some? ==> r.value % InstallmentUnit == 0
  {
    match cell
    case None => None
    case Some(v) =>
      if v == NotFound then None
      else
        HasDigitWithoutDots(v);
        match FirstRun(RemoveAll(v, "."), false)
        case None => None
        case Some(ds) => Some(DecimalValue(ds) * InstallmentUnit)
  }

  /** Reference reading of an installment label: the number written in it, in millions. */
  lemma InstallmentOfLabel(p: string, n: nat, q: string)
    requires !HasDigit(p) && '.' !in p && '.' !in q && (q == [] || !IsDigit(q[0]))
    ensures Installment(Some(p + Decimal(n) + q)) == Some(n * InstallmentUnit)
  {
    var d := Decimal(n);
    var s := p + d + q;
    assert s[|p|] == d[0];
    assert s != NotFound by {
      assert !HasDigit(NotFound);
    }
    assert '.' !in d;
    assert '.' !in s;
    RemoveAllAbsent(s, ".");
    FirstRunOf(p, d, q, false);
    DecimalRoundTrip(n);
  }

  lemma InstallmentExample()
    ensures Installment(Some("cicilan " + "2")) == Some(2000000)
  {
    InstallmentOfLabel("cicilan ", 2, "");
    assert Decimal(2) == "2";
    assert "cicilan " + "2" + "" == "cicilan " + "2";
  }

  /** The dots are removed before the digits are read, so "2.5" counts as 25 million. */
  lemma InstallmentDotsJoin()
    ensures Installment(Some("cicilan " + "2.5" + " jt")) == Some(25000000)
  {
    var s := "cicilan " + "2.5" + " jt";
    assert s == "cicilan 2" + "." + "5 jt";
    DotJoin("cicilan 2", "5 jt");
    assert "cicilan 2" + "5 jt" == "cicilan " + "25" + " jt";
    FirstRunOf("cicilan ", "25", " jt", false);
    assert s != NotFound;
    assert DecimalValue("25") == 25 by {
      assert "25"[..1] == "2" && "2"[..0] == "";
    }
  }

  lemma InstallmentOfSentinel()
    ensures Installment(Some(NotFound)) == None && Installment(None) == None
  {
  }

  // ---------------------------------------------------------------- posted time

  const TodayLabel := "hari ini"
  const YesterdayLabel := "kemarin"
  /** Values of at most this many characters pass through unchanged. */
  const ShortLength := 7

  /** `str(value)`: a missing cell prints as "nan". */
  function CellText(cell: Cell): (r: string)
    ensures cell.Some? ==> r == cell.value
    ensures cell.None? ==> r == "nan"
  {
    match cell
    case None => "nan"
    case Some(s) => s
  }

  /**
   * `(datetime.now() - timedelta(days=n)).strftime('%d %b')`, with the day
   * given as a count of days since 0001-01-01 and the formatting left abstract;
   * the subtraction raises when it reaches before the first day.
   */
  function DaysBefore(today: int, n: nat, fmt: int -> string): (r: Result<Option<string>, TransformError>)
    ensures r.Success? <==> n <= today
    ensures r.Success? ==> r.value == Some(fmt(today - n))
    ensures r.Failure? ==> r.error == DateOutOfRange
  {
    if today - n < 0 then Failure(DateOutOfRange) else Success(Some(fmt(today - n)))
  }

  /** `transform_posted_time`: relative labels become dates, long labels without a number become missing. */
  function PostedTime(cell: Cell, today: int, fmt: int -> string): (r: Result<Option<string>, TransformError>)
    requires ValidDay(today)
    ensures var v := Lower(CellText(cell));
      r.Failure? ==> (r.error == DateOutOfRange
        && (Contains(v, YesterdayLabel) || (|v| > ShortLength && HasDigit(v))))
    ensures var v := Lower(CellText(cell));
      (r.Success? && r.value.None?) <==>
        !Contains(v, TodayLabel) && !Contains(v, YesterdayLabel) && |v| > ShortLength && !HasDigit(v)
  {
    var value := Lower(CellText(cell));
    if Contains(value, TodayLabel) then Success(Some(fmt(today)))
    else if Contains(value, YesterdayLabel) then DaysBefore(today, 1, fmt)
    else if |value| > ShortLength then
      match FirstRun(value, false)
      case None => Success(None)
      case Some(day) => DaysBefore(today, DecimalValue(day), fmt)
    else Success(Some(value))
  }

  /** "hari ini" anywhere in the label gives today's date, whatever else the label says. */
  lemma PostedToday(cell: Cell, today: int, fmt: int -> string)
    requires ValidDay(today) && Contains(Lower(CellText(cell)), TodayLabel)
    ensures PostedTime(cell, today, fmt) == Success(Some(fmt(today)))
  {
  }

  /** "kemarin" gives yesterday's date; on the first representable day it raises. */
  lemma PostedYesterday(cell: Cell, today: int, fmt: int -> string)
    requires ValidDay(today)
    requires !Contains(Lower(CellText(cell)), TodayLabel) && Contains(Lower(CellText(cell)), YesterdayLabel)
    ensures PostedTime(cell, today, fmt)
      == if today >= 1 then Success(Some(fmt(today - 1))) else Failure(DateOutOfRange)
  {
  }

  /**
   * Reference reading of a long label with a number: the first digit run of
   * the lower-cased label, leading zeros and all, counts the days back.
   */
  lemma PostedDaysAgo(cell: Cell, p: string, d: string, q: string, today: int, fmt: int -> string)
    requires ValidDay(today)
    requires Lower(CellText(cell)) == p + d + q
    requires !HasDigit(p) && |d| > 0 && AllDigits(d) && (q == [] || !IsDigit(q[0]))
    requires |p + d + q| > ShortLength
    requires !Contains(p + d + q, TodayLabel) && !Contains(p + d + q, YesterdayLabel)
    ensures PostedTime(cell, today, fmt)
      == if DecimalValue(d) <= today then Success(Some(fmt(today - DecimalValue(d)))) else Failure(DateOutOfRange)
  {
    FirstRunOf(p, d, q, false);
  }

  /** Short labels are only lower-cased: "hari ini" cannot fit in them. */
  lemma PostedShort(cell: Cell, today: int, fmt: int -> string)
    requires ValidDay(today)
    requires |CellText(cell)| <= ShortLength && !Contains(Lower(CellText(cell)), YesterdayLabel)
    ensures PostedTime(cell, today, fmt) == Success(Some(Lower(CellText(cell))))
  {
    ShortNotContained(Lower(CellText(cell)), TodayLabel);
  }

  /** A missing cell is read as the text "nan" and kept. */
  lemma PostedMissing(today: int, fmt: int -> string)
    requires ValidDay(today)
    ensures PostedTime(None, today, fmt) == Success(Some("nan"))
  {
    PostedShort(None, today, fmt);
    assert NoUpper("nan");
    LowerUnchanged("nan");
    MissingCharNotContained("nan", YesterdayLabel, 0);
  }

  /** The parser's sentinel is long and has no number: it becomes missing. */
  lemma PostedSentinel(today: int, fmt: int -> string)
    requires ValidDay(today)
    ensures PostedTime(Some(NotFound), today, fmt) == Success(None)
  {
    SentinelLabel();
    assert Lower(CellText(Some(NotFound))) == NotFound;
  }

  /** The sentinel is lower-case, long, has no number and neither relative label. */
  lemma SentinelLabel()
    ensures Lower(NotFound) == NotFound && |NotFound| > ShortLength && !HasDigit(NotFound)
    ensures !Contains(NotFound, TodayLabel) && !Contains(NotFound, YesterdayLabel)
  {
    assert forall c :: c in NotFound ==> ('a' <= c <= 'z' || c == ' ');
    PlainWords(NotFound);
    LowerUnchanged(NotFound);
    assert TodayLabel[0] == 'h' && YesterdayLabel[0] == 'k';
    assert 'h' !in NotFound && 'k' !in NotFound;
    MissingCharNotContained(NotFound, TodayLabel, 0);
    MissingCharNotContained(NotFound, YesterdayLabel, 0);
  }

  /** Every produced date lies within the representable days, no later than today. */
  lemma PostedDateInRange(cell: Cell, today: int, fmt: int -> string)
    requires ValidDay(today)
    requires PostedTime(cell, today, fmt).Success? && PostedTime(cell, today, fmt).value.Some?
    ensures var t := PostedTime(cell, today, fmt).value.value;
      t == Lower(CellText(cell)) || exists d :: 0 <= d <= today && t == fmt(d)
  {
  }

  /** A day count followed by " hari yang lalu" is long and names neither relative label. */
  lemma DaysAgoLabel(x: string)
    requires |x| > 0 && AllDigits(x)
    ensures |x + DaysAgoWords| > ShortLength
    ensures !Contains(x + DaysAgoWords, TodayLabel) && !Contains(x + DaysAgoWords, YesterdayLabel)
  {
    var s := x + DaysAgoWords;
    forall k | 0 <= k && k + 8 <= |s| ensures !OccursAt(s, TodayLabel, k) {
      assert s[k..k + 8][0] == s[k];
      if k > |x| + 1 {
        assert s[k] == DaysAgoWords[k - |x|];
      } else if k == |x| + 1 {
        assert s[k..k + 8][5] == s[k + 5] == 'y';
      } else if k == |x| {
        assert s[k] == ' ';
      } else {
        assert s[k] == x[k];
      }
    }
    ContainsIff(s, TodayLabel);
    assert forall i :: 0 <= i < |x| ==> s[i] == x[i];
    assert forall i :: |x| <= i < |s| ==> s[i] == DaysAgoWords[i - |x|];
    assert YesterdayLabel[0] !in s;
    MissingCharNotContained(s, YesterdayLabel, 0);
  }

  const DaysAgoWords := " hari yang lalu"

  /** "3 hari yang lalu" is dated three days back. */
  lemma PostedDaysAgoExample(today: int, fmt: int -> string)
    requires ValidDay(today)
    ensures PostedTime(Some("3" + DaysAgoWords), today, fmt)
      == if 3 <= today then Success(Some(fmt(today - 3))) else Failure(DateOutOfRange)
  {
    var s := "3" + DaysAgoWords;
    DaysAgoLabel("3");
    assert NoUpper(s);
    LowerUnchanged(s);
    assert "" + "3" + DaysAgoWords == s;
    assert DecimalValue("3") == 3 by {
      assert "3"[..0] == "";
    }
    PostedDaysAgo(Some(s), "", "3", DaysAgoWords, today, fmt);
  }

  /** The label is lower-cased first and the day count read as `int` reads it: "03 Hari yang lalu" is three days back. */
  lemma PostedCapitalisedExample(today: int, fmt: int -> string)
    requires ValidDay(today)
    ensures PostedTime(Some("03" + " Hari yang lalu"), today, fmt)
      == if 3 <= today then Success(Some(fmt(today - 3))) else Failure(DateOutOfRange)
  {
    var s := "03" + DaysAgoWords;
    CapitalisedLower();
    DaysAgoLabel("03");
    assert "" + "03" + DaysAgoWords == s;
    assert DecimalValue("03") == 3 by {
      assert "03"[..1] == "0" && "0"[..0] == "";
    }
    PostedDaysAgo(Some("03" + " Hari yang lalu"), "", "03", DaysAgoWords, today, fmt);
  }

  lemma CapitalisedLower()
    ensures Lower("03" + " Hari yang lalu") == "03" + DaysAgoWords
  {
  }

  // ---------------------------------------------------------------- the whole table

  /** A cleaned row from a parsed row and the values of its two columns that can raise. */
  function Assemble(row: ParsedRow, ym: YearMileage, posted: Cell): CleanRow {
    CleanRow(row.title, Price(row.price), ListingUrl(row.listingUrl), Location(row.location),
      Installment(row.installment), posted, ym.year, ym.lowerKm, ym.upperKm)
  }

  predicate MileageOk(table: seq<ParsedRow>) {
    forall i :: 0 <= i < |table| ==> ExtractYearMileage(table[i].yearMileage).Success?
  }

  predicate PostedOk(table: seq<ParsedRow>, today: int, fmt: int -> string)
    requires ValidDay(today)
  {
    forall i :: 0 <= i < |table| ==> PostedTime(table[i].postedTime, today, fmt).Success?
  }

  /**
   * `transform_data` on a whole table: the year/mileage column is computed
   * before the posted-time column, and the first column that raises aborts
   * the transformation.
   */
  function TransformTable(table: seq<ParsedRow>, today: int, fmt: int -> string): (r: Result<seq<CleanRow>, TransformError>)
    requires ValidDay(today)
    ensures r.Success? ==> |r.value| == |table|
  {
    if table == [] then Failure(NoColumns)
    else if !MileageOk(table) then Failure(MileageUnpack)
    else if !PostedOk(table, today, fmt) then Failure(DateOutOfRange)
    else Success(seq(|table|, i requires 0 <= i < |table| =>
      Assemble(table[i], ExtractYearMileage(table[i].yearMileage).value, PostedTime(table[i].postedTime, today, fmt).value)))
  }

  /** The table fails exactly when some row's cell raises, and a mileage failure takes precedence. */
  lemma TransformTableFailure(table: seq<ParsedRow>, today: int, fmt: int -> string)
    requires ValidDay(today)
    ensures var r := TransformTable(table, today, fmt);
      r.Failure? <==> table == [] || exists i :: (0 <= i < |table| &&
        (ExtractYearMileage(table[i].yearMileage).Failure? || PostedTime(table[i].postedTime, today, fmt).Failure?))
    ensures var r := TransformTable(table, today, fmt);
      (r.Failure? && r.error == MileageUnpack) <==>
        exists i :: 0 <= i < |table| && ExtractYearMileage(table[i].yearMileage).Failure?
    ensures TransformTable(table, today, fmt).Failure? && TransformTable(table, today, fmt).error == NoColumns
      <==> table == []
  {
  }

  /** What every cleaned row holds, column by column: each column is its rule applied to the parsed row. */
  lemma TransformTableRow(table: seq<ParsedRow>, today: int, fmt: int -> string, i: int)
    requires ValidDay(today) && TransformTable(table, today, fmt).Success? && 0 <= i < |table|
    ensures TransformTable(table, today, fmt).value[i].title == table[i].title
    ensures TransformTable(table, today, fmt).value[i].price == Price(table[i].price)
    ensures TransformTable(table, today, fmt).value[i].listingUrl == ListingUrl(table[i].listingUrl)
    ensures TransformTable(table, today, fmt).value[i].location == Location(table[i].location)
    ensures TransformTable(table, today, fmt).value[i].installment == Installment(table[i].installment)
    ensures Success(TransformTable(table, today, fmt).value[i].postedTime) == PostedTime(table[i].postedTime, today, fmt)
    ensures Success(YearMileage(TransformTable(table, today, fmt).value[i].year,
      TransformTable(table, today, fmt).value[i].lowerKm, TransformTable(table, today, fmt).value[i].upperKm))
      == ExtractYearMileage(table[i].yearMileage)
  {
    var row := table[i];
    var ym := ExtractYearMileage(row.yearMileage);
    assert ym.Success?;
    var posted := PostedTime(row.postedTime, today, fmt);
    assert posted.Success?;
    assert TransformTable(table, today, fmt).value[i] == Assemble(row, ym.value, posted.value);
  }

  /**
   * The columns of one cleaned row, stated by what each rule promises: the
   * title is kept, a price exists when the cell holds a digit, the URL is
   * absolute, the location loses its quotes, the installment is in millions,
   * and the three year/mileage parts are present together.
   */
  lemma AssembleRow(row: ParsedRow, ym: YearMileage, posted: Cell)
    requires ExtractYearMileage(row.yearMileage) == Success(ym)
    ensures var r := Assemble(row, ym, posted);
      r.title == row.title
      && (r.price.Some? <==> row.price.Some? && HasDigit(row.price.value))
      && (r.listingUrl.Some? <==> row.listingUrl.Some?)
      && (r.listingUrl.Some? ==> r.listingUrl.value == Fetcher.Domain + row.listingUrl.value)
      && (r.location.Some? <==> row.location.Some?)
      && (r.location.Some? ==> '"' !in r.location.value)
      && (r.installment.Some? <==> row.installment.Some? && row.installment.value != NotFound && HasDigit(row.installment.value))
      && (r.installment.Some? ==> r.installment.value % InstallmentUnit == 0)
      && (r.year.None? <==> r.lowerKm.None?) && (r.lowerKm.None? <==> r.upperKm.None?)
      && (r.year.Some? <==>
            (row.yearMileage.Some? && row.yearMileage.value != DataNotFound && Contains(row.yearMileage.value, " - ")))
  {
    var u := ListingUrl(row.listingUrl);
    if u.Some? {
      assert u.value == u.value[..|Fetcher.Domain|] + u.value[|Fetcher.Domain|..];
    }
  }

  /**
   * A table read back from the parser's own output never fails on the
   * year/mileage column: only the posted-time column can make it raise.
   */
  lemma ParsedTableNeverUnpackFails(cards: seq<Card>, today: int, fmt: int -> string)
    requires ValidDay(today) && forall j :: 0 <= j < |cards| ==> Readable(cards[j])
    ensures var table := seq(|cards|, j requires 0 <= j < |cards| && Readable(cards[j]) => ReadRecord(ExtractRecord(cards[j])));
      TransformTable(table, today, fmt).Failure? ==> TransformTable(table, today, fmt).error != MileageUnpack
  {
    var table := seq(|cards|, j requires 0 <= j < |cards| && Readable(cards[j]) => ReadRecord(ExtractRecord(cards[j])));
    forall j | 0 <= j < |table| ensures ExtractYearMileage(table[j].yearMileage).Success? {
      ParsedYearMileageNeverRaises(cards[j]);
    }
  }

  /** The year/mileage column: `extract_year_mileage` applied row by row until a row raises. */
  method MileageColumn(table: seq<ParsedRow>) returns (res: Result<seq<YearMileage>, TransformError>)
    ensures res.Failure? <==> !MileageOk(table)
    ensures res.Failure? ==> res.error == MileageUnpack
    ensures res.Success? ==> (|res.value| == |table|
      && forall j :: 0 <= j < |table| ==> ExtractYearMileage(table[j].yearMileage) == Success(res.value[j]))
  {
    var yms: seq<YearMileage> := [];
    var i := 0;
    while i < |table|
      invariant 0 <= i <= |table| && |yms| == i
      invariant forall j :: 0 <= j < i ==> ExtractYearMileage(table[j].yearMileage) == Success(yms[j])
    {
      var ym := ExtractYearMileage(table[i].yearMileage);
      if ym.Failure? {
        return Failure(ym.error);
      }
      ExtendMileageColumn(table, yms, ym.value);
      yms := yms + [ym.value];
      i := i + 1;
    }
    res := Success(yms);
  }

  lemma ExtendMileageColumn(table: seq<ParsedRow>, yms: seq<YearMileage>, ym: YearMileage)
    requires |yms| < |table|
    requires forall j :: 0 <= j < |yms| ==> ExtractYearMileage(table[j].yearMileage) == Success(yms[j])
    requires ExtractYearMileage(table[|yms|].yearMileage) == Success(ym)
    ensures forall j :: 0 <= j < |yms| + 1 ==> ExtractYearMileage(table[j].yearMileage) == Success((yms + [ym])[j])
  {
    forall j | 0 <= j < |yms| + 1 ensures ExtractYearMileage(table[j].yearMileage) == Success((yms + [ym])[j]) {
      if j < |yms| {
        assert (yms + [ym])[j] == yms[j];
      }
    }
  }

  /** The posted-time column: `transform_posted_time` applied row by row until a row raises. */
  method PostedColumn(table: seq<ParsedRow>, today: int, fmt: int -> string) returns (res: Result<seq<Cell>, TransformError>)
    requires ValidDay(today)
    ensures res.Failure? <==> !PostedOk(table, today, fmt)
    ensures res.Failure? ==> res.error == DateOutOfRange
    ensures res.Success? ==> (|res.value| == |table|
      && forall j :: 0 <= j < |table| ==> PostedTime(table[j].postedTime, today, fmt) == Success(res.value[j]))
  {
    var posted: seq<Cell> := [];
    var i := 0;
    while i < |table|
      invariant 0 <= i <= |table| && |posted| == i
      invariant forall j :: 0 <= j < i ==> PostedTime(table[j].postedTime, today, fmt) == Success(posted[j])
    {
      var p := PostedTime(table[i].postedTime, today, fmt);
      if p.Failure? {
        return Failure(p.error);
      }
      ExtendPostedColumn(table, today, fmt, posted, p.value);
      posted := posted + [p.value];
      i := i + 1;
    }
    res := Success(posted);
  }

  lemma ExtendPostedColumn(table: seq<ParsedRow>, today: int, fmt: int -> string, posted: seq<Cell>, p: Cell)
    requires ValidDay(today) && |posted| < |table|
    requires forall j :: 0 <= j < |posted| ==> PostedTime(table[j].postedTime, today, fmt) == Success(posted[j])
    requires PostedTime(table[|posted|].postedTime, today, fmt) == Success(p)
    ensures forall j :: 0 <= j < |posted| + 1 ==> PostedTime(table[j].postedTime, today, fmt) == Success((posted + [p])[j])
  {
    forall j | 0 <= j < |posted| + 1 ensures PostedTime(table[j].postedTime, today, fmt) == Success((posted + [p])[j]) {
      if j < |posted| {
        assert (posted + [p])[j] == posted[j];
      }
    }
  }

  /** `transform_data`'s column-wise passes over a table held in memory. */
  method TransformData(table: seq<ParsedRow>, today: int, fmt: int -> string) returns (res: Result<seq<CleanRow>, TransformError>)
    requires ValidDay(today)
    ensures res == TransformTable(table, today, fmt)
  {
    if table == [] {
      return Failure(NoColumns);
    }
    var yms := MileageColumn(table);
    if yms.Failure? {
      TableFailure(table, today, fmt);
      return Failure(yms.error);
    }
    var posted := PostedColumn(table, today, fmt);
    if posted.Failure? {
      TableFailure(table, today, fmt);
      return Failure(posted.error);
    }
    var rows := seq(|table|, j requires 0 <= j < |table| => Assemble(table[j], yms.value[j], posted.value[j]));
    TableOfColumns(table, today, fmt, yms.value, posted.value, rows);
    res := Success(rows);
  }

  /** The error of a table that is not empty is the one of its first raising column. */
  lemma TableFailure(table: seq<ParsedRow>, today: int, fmt: int -> string)
    requires ValidDay(today) && table != []
    ensures !MileageOk(table) ==> TransformTable(table, today, fmt) == Failure(MileageUnpack)
    ensures MileageOk(table) && !PostedOk(table, today, fmt) ==> TransformTable(table, today, fmt) == Failure(DateOutOfRange)
  {
  }

  /** Columns computed without raising assemble into the transformed table. */
  lemma TableOfColumns(table: seq<ParsedRow>, today: int, fmt: int -> string,
                       yms: seq<YearMileage>, posted: seq<Cell>, rows: seq<CleanRow>)
    requires ValidDay(today) && table != [] && |yms| == |table| && |posted| == |table| && |rows| == |table|
    requires forall j :: 0 <= j < |table| ==> ExtractYearMileage(table[j].yearMileage) == Success(yms[j])
    requires forall j :: 0 <= j < |table| ==> PostedTime(table[j].postedTime, today, fmt) == Success(posted[j])
    requires forall j :: 0 <= j < |table| ==> rows[j] == Assemble(table[j], yms[j], posted[j])
    ensures TransformTable(table, today, fmt) == Success(rows)
  {
    assert MileageOk(table);
    assert PostedOk(table, today, fmt);
    assert rows == TransformTable(table, today, fmt).value;
  }
}

=== FILE: pipeline.dfy ===
/**
 * The luigi pipeline of `scraps.py`: four tasks, each depending on the one
 * before it, built from the last one.
 *
 * Luigi's default completion test is taken as an explicit assumption of the
 * model: a task is complete exactly when the file its `output()` names exists.
 * The file system is the set `existing` of paths that exist; what a task's
 * `run()` does is an abstract `Outcome` chosen by a parameter.
 */
module Pipeline {
  import opened Wrappers

  /** The four tasks with their luigi parameters. */
  datatype Task =
    | Scrape(keyword: string, htmlPath: string)
    | Parse(keyword: string, htmlPath: string, parsedPath: string)
    | Transform(keyword: string, htmlPath: string, parsedPath: string, transformedPath: string)
    | Load(keyword: string, htmlPath: string, parsedPath: string, transformedPath: string,
           insertedPath: string, tableName: string, dbUrl: string)

  /** The parameter defaults, read from the environment. */
  datatype Config = Config(keyword: string, htmlPath: string, parsedPath: string, transformedPath: string,
                           insertedPath: string, tableName: string, dbUrl: string)

  /** `luigi.build([Load()])`: only the last task is requested, with every parameter at its default. */
  function Root(c: Config): (t: Task)
    ensures t.Load?
  {
    Load(c.keyword, c.htmlPath, c.parsedPath, c.transformedPath, c.insertedPath, c.tableName, c.dbUrl)
  }

  /** Position of a task in the chain: Scrape is first. */
  function Depth(t: Task): nat {
    match t
    case Scrape(_, _) => 0
    case Parse(_, _, _) => 1
    case Transform(_, _, _, _) => 2
    case Load(_, _, _, _, _, _, _) => 3
  }

  /** `requires()`: each task depends on the one before it, passing its own parameters on. */
  function Requires(t: Task): (r: Option<Task>)
    ensures r.None? <==> t.Scrape?
    ensures r.Some? ==> Depth(r.value) + 1 == Depth(t)
    ensures r.Some? ==> r.value.keyword == t.keyword && r.value.htmlPath == t.htmlPath
  {
    match t
    case Scrape(_, _) => None
    case Parse(k, h, _) => Some(Scrape(k, h))
    case Transform(k, h, p, _) => Some(Parse(k, h, p))
    case Load(k, h, p, tr, _, _, _) => Some(Transform(k, h, p, tr))
  }

  /** `output()`: the task's own target path. */
  function Output(t: Task): (r: string)
    ensures t.Scrape? ==> r == t.htmlPath
    ensures t.Parse? ==> r == t.parsedPath
    ensures t.Transform? ==> r == t.transformedPath
    ensures t.Load? ==> r == t.insertedPath
  {
    match t
    case Scrape(_, h) => h
    case Parse(_, _, p) => p
    case Transform(_, _, _, tr) => tr
    case Load(_, _, _, _, i, _, _) => i
  }

  /** The file `run()` reads: the output of the task it requires. */
  function Input(t: Task): (r: Option<string>)
    ensures r.None? <==> t.Scrape?
  {
    match Requires(t)
    case None => None
    case Some(u) => Some(Output(u))
  }

  /** Each stage reads the artifact named by its own parameters: the file the stage before it writes. */
  lemma InputIsPredecessorPath(t: Task)
    ensures t.Parse? ==> Input(t) == Some(t.htmlPath)
    ensures t.Transform? ==> Input(t) == Some(t.parsedPath)
    ensures t.Load? ==> Input(t) == Some(t.transformedPath)
  {
  }

  /** Every parameter a task hands to the task it requires arrives unchanged. */
  lemma ParametersThreaded(t: Task)
    ensures t.Transform? ==> Requires(t).value.parsedPath == t.parsedPath
    ensures t.Load? ==> (Requires(t).value.parsedPath == t.parsedPath
      && Requires(t).value.transformedPath == t.transformedPath)
  {
  }

  /** The tasks reached from `t` by following `requires()`, Scrape first and `t` last. */
  function Chain(t: Task): (r: seq<Task>)
    decreases Depth(t)
    ensures |r| == Depth(t) + 1 && r[|r| - 1] == t && r[0].Scrape?
  {
    match Requires(t)
    case None => [t]
    case Some(u) => Chain(u) + [t]
  }

  /** Along the chain, position is depth, each task requires its predecessor, and the shared parameters agree. */
  lemma {:induction false} ChainLinks(t: Task)
    decreases Depth(t)
    ensures forall i :: 0 <= i < |Chain(t)| ==> Depth(Chain(t)[i]) == i
    ensures forall i :: 0 < i < |Chain(t)| ==> Requires(Chain(t)[i]) == Some(Chain(t)[i - 1])
    ensures forall i :: 0 <= i < |Chain(t)| ==> Chain(t)[i].keyword == t.keyword && Chain(t)[i].htmlPath == t.htmlPath
  {
    match Requires(t)
    case None =>
    case Some(u) =>
      ChainLinks(u);
      var r, c := Chain(t), Chain(u);
      assert r == c + [t];
      assert c[|c| - 1] == u;
      assert u.keyword == t.keyword && u.htmlPath == t.htmlPath;
      forall i | 0 <= i < |r|
        ensures Depth(r[i]) == i
        ensures i > 0 ==> Requires(r[i]) == Some(r[i - 1])
        ensures r[i].keyword == t.keyword && r[i].htmlPath == t.htmlPath
      {
        if i < |c| {
          assert r[i] == c[i];
          assert c[i].keyword == u.keyword && c[i].htmlPath == u.htmlPath;
          if i > 0 {
            assert r[i - 1] == c[i - 1];
            assert Requires(c[i]) == Some(c[i - 1]);
          }
        } else {
          assert r[i] == t && r[i - 1] == u;
        }
      }
  }

  /** From the requested task, the chain reaches Scrape in three steps, with every shared parameter taken from the configuration. */
  lemma RootChain(c: Config)
    ensures Chain(Root(c)) == [
      Scrape(c.keyword, c.htmlPath),
      Parse(c.keyword, c.htmlPath, c.parsedPath),
      Transform(c.keyword, c.htmlPath, c.parsedPath, c.transformedPath),
      Root(c)]
  {
    var t0 := Scrape(c.keyword, c.htmlPath);
    var t1 := Parse(c.keyword, c.htmlPath, c.parsedPath);
    var t2 := Transform(c.keyword, c.htmlPath, c.parsedPath, c.transformedPath);
    assert Chain(t0) == [t0];
    assert Chain(t1) == [t0] + [t1];
    assert Chain(t2) == [t0, t1] + [t2];
    assert Chain(Root(c)) == [t0, t1, t2] + [Root(c)];
  }

  // ---------------------------------------------------------------- scheduling and running

  /**
   * What a task's `run()` does: writes its output, returns without writing
   * it, or raises. Only `parse_html` swallows its own errors, so only Parse
   * can return without writing.
   */
  datatype Outcome = Wrote | Silent | Raised

  ghost predicate Admissible(run: Task -> Outcome) {
    forall t :: run(t) == Silent ==> t.Parse?
  }

  datatype Status =
    | Succeeded
    | TaskFailed(failed: Task)    // `run()` raised
    | Unfulfilled(blocked: Task)  // the input was missing when the task was about to run

  /** The file system, the tasks that have run, and the final status of one build. */
  datatype Run = Run(existing: set<string>, log: seq<Task>, status: Status)

  /**
   * The tasks the scheduler finds incomplete, upstream first: walking up
   * `requires()` from `t`, it stops at the first task whose output exists.
   */
  function Pending(t: Task, existing: set<string>): (r: seq<Task>)
    decreases Depth(t)
    ensures |r| <= Depth(t) + 1
    ensures r == [] <==> Output(t) in existing
    ensures r != [] ==> r[|r| - 1] == t
    ensures forall i :: 0 <= i < |r| ==> Output(r[i]) !in existing
  {
    if Output(t) in existing then []
    else
      match Requires(t)
      case None => [t]
      case Some(u) => Pending(u, existing) + [t]
  }

  /**
   * The worker runs the pending tasks in order. Before each run the task's
   * input must exist; a raising task stops the build; a task that returns
   * counts as done whether or not it wrote its output.
   */
  function Execute(pending: seq<Task>, existing: set<string>, log: seq<Task>, run: Task -> Outcome): (r: Run)
    decreases |pending|
    ensures existing <= r.existing
    ensures |log| <= |r.log| <= |log| + |pending| && r.log[..|log|] == log
  {
    if pending == [] then Run(existing, log, Succeeded)
    else
      var t := pending[0];
      if Input(t).Some? && Input(t).value !in existing then Run(existing, log, Unfulfilled(t))
      else
        match run(t)
        case Raised => Run(existing, log + [t], TaskFailed(t))
        case Silent => Execute(pending[1..], existing, log + [t], run)
        case Wrote => Execute(pending[1..], existing + {Output(t)}, log + [t], run)
  }

  /** The outputs of the tasks in `ts` that wrote them. */
  function Written(ts: seq<Task>, run: Task -> Outcome): set<string> {
    set u | u in ts && run(u) == Wrote :: Output(u)
  }

  /** The outputs written by the first k + 1 pending tasks: the first one's, then those of the next k. */
  lemma WrittenStep(pending: seq<Task>, k: nat, run: Task -> Outcome)
    requires k < |pending|
    ensures Written(pending[..k + 1], run)
      == (if run(pending[0]) == Wrote then {Output(pending[0])} else {}) + Written(pending[1..][..k], run)
  {
    var t := pending[0];
    var rest := pending[1..][..k];
    assert pending[..k + 1] == [t] + rest;
    assert forall u :: u in [t] + rest <==> u == t || u in rest;
  }

  /** The tasks a run logs are the first pending tasks, in order, after what was logged before. */
  lemma {:induction false} ExecuteLog(pending: seq<Task>, existing: set<string>, log: seq<Task>, run: Task -> Outcome)
    decreases |pending|
    ensures var r := Execute(pending, existing, log, run);
      r.log == log + pending[..|r.log| - |log|]
  {
    if pending == [] {
      assert pending[..0] == [];
    } else {
      var t := pending[0];
      if Input(t).Some? && Input(t).value !in existing {
        assert pending[..0] == [];
      } else if run(t) == Raised {
        assert pending[..1] == [t];
      } else {
        var existing' := if run(t) == Wrote then existing + {Output(t)} else existing;
        var rest := pending[1..];
        var r := Execute(rest, existing', log + [t], run);
        assert Execute(pending, existing, log, run) == r;
        ExecuteLog(rest, existing', log + [t], run);
        assert pending[..|r.log| - |log|] == [t] + rest[..|r.log| - |log + [t]|];
      }
    }
  }

  /**
   * With k the number of tasks a run logs: all pending tasks run when none
   * raises, the run ends at the first that raises, or it stops before the
   * first whose input is missing.
   */
  lemma {:induction false} ExecuteTrace(pending: seq<Task>, existing: set<string>, log: seq<Task>, run: Task -> Outcome)
    decreases |pending|
    ensures var r := Execute(pending, existing, log, run); var k := |r.log| - |log|;
      r.status.Succeeded? <==> k == |pending| && forall i :: 0 <= i < |pending| ==> run(pending[i]) != Raised
    ensures var r := Execute(pending, existing, log, run); var k := |r.log| - |log|;
      r.status.TaskFailed? ==> 0 < k && r.status.failed == pending[k - 1] && run(pending[k - 1]) == Raised
    ensures var r := Execute(pending, existing, log, run); var k := |r.log| - |log|;
      r.status.Unfulfilled? ==>
        k < |pending| && r.status.blocked == pending[k]
        && Input(pending[k]).Some? && Input(pending[k]).value !in r.existing
    ensures var r := Execute(pending, existing, log, run); var k := |r.log| - |log|;
      forall i :: 0 <= i < k && !(r.status.TaskFailed? && i == k - 1) ==> run(pending[i]) != Raised
  {
    if pending != [] {
      var t := pending[0];
      if !(Input(t).Some? && Input(t).value !in existing) && run(t) != Raised {
        var existing' := if run(t) == Wrote then existing + {Output(t)} else existing;
        var rest := pending[1..];
        assert Execute(pending, existing, log, run) == Execute(rest, existing', log + [t], run);
        ExecuteTrace(rest, existing', log + [t], run);
        assert forall i :: 0 <= i < |rest| ==> rest[i] == pending[i + 1];
      }
    }
  }

  /** The files a run adds are exactly the outputs of the tasks in its log that wrote them. */
  lemma {:induction false} ExecuteWritten(pending: seq<Task>, existing: set<string>, log: seq<Task>, run: Task -> Outcome)
    decreases |pending|
    ensures var r := Execute(pending, existing, log, run);
      r.existing == existing + Written(pending[..|r.log| - |log|], run)
  {
    if pending == [] {
      assert pending[..0] == [];
    } else {
      var t := pending[0];
      ExecuteStep(pending, existing, log, run);
      if Input(t).Some? && Input(t).value !in existing {
        assert pending[..0] == [];
      } else if run(t) == Raised {
        WrittenStep(pending, 0, run);
        assert pending[1..][..0] == [];
      } else {
        var existing' := if run(t) == Wrote then existing + {Output(t)} else existing;
        var r := Execute(pending[1..], existing', log + [t], run);
        ExecuteWritten(pending[1..], existing', log + [t], run);
        WrittenAfterStep(pending, existing, existing', r.existing, |r.log| - |log + [t]|, run);
      }
    }
  }

  /** The files after running the first pending task and then k more. */
  lemma WrittenAfterStep(pending: seq<Task>, existing: set<string>, existing': set<string>, final: set<string>,
                         k: nat, run: Task -> Outcome)
    requires k < |pending|
    requires existing' == if run(pending[0]) == Wrote then existing + {Output(pending[0])} else existing
    requires final == existing' + Written(pending[1..][..k], run)
    ensures final == existing + Written(pending[..k + 1], run)
  {
    WrittenStep(pending, k, run);
  }

  /** One `luigi.build` of `t` starting from the files `existing`. */
  function Build(t: Task, existing: set<string>, run: Task -> Outcome): (r: Run)
    ensures existing <= r.existing
    ensures |r.log| <= Depth(t) + 1
    ensures r.log == [] <==> Output(t) in existing
  {
    PendingFirstInput(t, existing);
    Execute(Pending(t, existing), existing, [], run)
  }

  /** The walk stops below a task only when that task's output exists, so the first pending task's input is on disk. */
  lemma {:induction false} PendingFirstInput(t: Task, existing: set<string>)
    decreases Depth(t)
    ensures Pending(t, existing) != [] && Input(Pending(t, existing)[0]).Some? ==> Input(Pending(t, existing)[0]).value in existing
  {
    if Output(t) !in existing && Requires(t).Some? {
      var u := Requires(t).value;
      PendingUnfold(t, u, existing);
      if Pending(u, existing) == [] {
        assert Pending(t, existing)[0] == t;
      } else {
        PendingFirstInput(u, existing);
        assert Pending(t, existing)[0] == Pending(u, existing)[0];
      }
    }
  }

  /** `p` is the last |p| elements of `c`. */
  predicate IsSuffix(p: seq<Task>, c: seq<Task>) {
    |p| <= |c| && p == c[|c| - |p|..]
  }

  /** The pending tasks are the last ones of the chain, in chain order. */
  lemma {:induction false} PendingIsChainSuffix(t: Task, existing: set<string>)
    decreases Depth(t)
    ensures IsSuffix(Pending(t, existing), Chain(t))
  {
    if Output(t) in existing || Requires(t).None? {
      PendingBase(t, existing);
    } else {
      var u := Requires(t).value;
      PendingIsChainSuffix(u, existing);
      PendingStep(t, u, existing);
    }
  }

  lemma PendingBase(t: Task, existing: set<string>)
    requires Output(t) in existing || Requires(t).None?
    ensures IsSuffix(Pending(t, existing), Chain(t))
  {
    if Output(t) in existing {
      assert Pending(t, existing) == [];
    } else {
      assert Pending(t, existing) == [t] == Chain(t);
    }
  }

  lemma PendingStep(t: Task, u: Task, existing: set<string>)
    requires Output(t) !in existing && Requires(t) == Some(u)
    requires IsSuffix(Pending(u, existing), Chain(u))
    ensures IsSuffix(Pending(t, existing), Chain(t))
  {
    PendingUnfold(t, u, existing);
    ChainUnfold(t, u);
    SuffixExtended(Chain(u), Pending(u, existing), t, Chain(t), Pending(t, existing));
  }

  lemma PendingUnfold(t: Task, u: Task, existing: set<string>)
    requires Output(t) !in existing && Requires(t) == Some(u)
    ensures Pending(t, existing) == Pending(u, existing) + [t]
  {
  }

  lemma ChainUnfold(t: Task, u: Task)
    requires Requires(t) == Some(u)
    ensures Chain(t) == Chain(u) + [t]
  {
  }

  lemma SuffixExtended(c: seq<Task>, p: seq<Task>, t: Task, c': seq<Task>, p': seq<Task>)
    requires IsSuffix(p, c)
    requires c' == c + [t] && p' == p + [t]
    ensures IsSuffix(p', c')
  {
    assert c'[|c'| - |p'|..] == c[|c| - |p|..] + [t];
  }

  /** A task whose output exists is not run, and neither is anything upstream of it. */
  lemma CompleteIsSkipped(t: Task, existing: set<string>, run: Task -> Outcome)
    requires Output(t) in existing
    ensures Build(t, existing, run) == Run(existing, [], Succeeded)
  {
  }

  /** When no artifact exists and every task writes its output, the four tasks run in chain order. */
  lemma FreshBuildRunsAll(c: Config, run: Task -> Outcome)
    requires forall t :: run(t) == Wrote
    ensures var paths := {c.htmlPath, c.parsedPath, c.transformedPath, c.insertedPath};
      Build(Root(c), {}, run) == Run(paths, Chain(Root(c)), Succeeded)
  {
    var t0 := Scrape(c.keyword, c.htmlPath);
    var t1 := Parse(c.keyword, c.htmlPath, c.parsedPath);
    var t2 := Transform(c.keyword, c.htmlPath, c.parsedPath, c.transformedPath);
    var t3 := Root(c);
    RootChain(c);
    FreshPending(c);
    var e1 := {c.htmlPath};
    var e2 := e1 + {c.parsedPath};
    var e3 := e2 + {c.transformedPath};
    assert [t0, t1, t2, t3][1..] == [t1, t2, t3];
    assert [t1, t2, t3][1..] == [t2, t3];
    assert [t2, t3][1..] == [t3];
    assert [t3][1..] == [];
    assert [] + [t0] == [t0] && [t0] + [t1] == [t0, t1] && [t0, t1] + [t2] == [t0, t1, t2];
    assert [t0, t1, t2] + [t3] == [t0, t1, t2, t3];
    assert Execute([t3], e3, [t0, t1, t2], run) == Run(e3 + {c.insertedPath}, [t0, t1, t2, t3], Succeeded);
    assert Execute([t2, t3], e2, [t0, t1], run) == Execute([t3], e3, [t0, t1, t2], run);
    assert Execute([t1, t2, t3], e1, [t0], run) == Execute([t2, t3], e2, [t0, t1], run);
    var p := [t0, t1, t2, t3];
    assert Pending(t3, {}) == p;
    assert Execute(p, {}, [], run) == Execute(p[1..], {} + {Output(t0)}, [] + [t0], run);
    assert {} + {Output(t0)} == e1;
    assert Build(t3, {}, run) == Execute([t1, t2, t3], e1, [t0], run);
    assert e3 + {c.insertedPath} == {c.htmlPath, c.parsedPath, c.transformedPath, c.insertedPath};
  }

  /** With no artifact on disk, all four tasks are pending, upstream first. */
  lemma FreshPending(c: Config)
    ensures Pending(Root(c), {}) == Chain(Root(c))
  {
    var t0 := Scrape(c.keyword, c.htmlPath);
    var t1 := Parse(c.keyword, c.htmlPath, c.parsedPath);
    var t2 := Transform(c.keyword, c.htmlPath, c.parsedPath, c.transformedPath);
    RootChain(c);
    assert Pending(t0, {}) == [t0];
    assert Pending(t1, {}) == [t0, t1];
    assert Pending(t2, {}) == [t0, t1, t2];
  }

  /** A build that succeeded leaves the requested output in place, so building again runs nothing. */
  lemma BuildIdempotent(t: Task, existing: set<string>, run: Task -> Outcome)
    requires Build(t, existing, run).status == Succeeded
    requires Output(t) in Build(t, existing, run).existing
    ensures Build(t, Build(t, existing, run).existing, run) == Run(Build(t, existing, run).existing, [], Succeeded)
  {
  }

  /** When every task writes its output, a successful build creates every pending task's output. */
  lemma {:induction false} ExecuteWrites(pending: seq<Task>, existing: set<string>, log: seq<Task>, run: Task -> Outcome)
    requires forall t :: run(t) == Wrote
    requires Execute(pending, existing, log, run).status == Succeeded
    decreases |pending|
    ensures forall t :: t in pending ==> Output(t) in Execute(pending, existing, log, run).existing
    ensures Execute(pending, existing, log, run).log == log + pending
  {
    if pending != [] {
      var t := pending[0];
      ExecuteWrites(pending[1..], existing + {Output(t)}, log + [t], run);
      assert pending == [t] + pending[1..];
    }
  }

  /** When every task writes its output, building twice runs the chain once. */
  lemma SecondBuildRunsNothing(t: Task, existing: set<string>, run: Task -> Outcome)
    requires forall u :: run(u) == Wrote
    requires Build(t, existing, run).status == Succeeded
    ensures Build(t, Build(t, existing, run).existing, run).log == []
  {
    var p := Pending(t, existing);
    ExecuteWrites(p, existing, [], run);
    if p == [] {
      assert Output(t) in existing;
    } else {
      assert p[|p| - 1] in p;
    }
  }

  /**
   * A Parse that returns without writing its CSV is still marked done, and
   * Transform then stops the build because its input is missing.
   */
  lemma SilentParseBlocksTransform(c: Config, run: Task -> Outcome)
    requires Admissible(run)
    requires run(Scrape(c.keyword, c.htmlPath)) == Wrote
    requires run(Parse(c.keyword, c.htmlPath, c.parsedPath)) == Silent
    requires c.parsedPath != c.htmlPath
    ensures Build(Root(c), {}, run).status == Unfulfilled(Transform(c.keyword, c.htmlPath, c.parsedPath, c.transformedPath))
    ensures Build(Root(c), {}, run).existing == {c.htmlPath}
  {
    var t0 := Scrape(c.keyword, c.htmlPath);
    var t1 := Parse(c.keyword, c.htmlPath, c.parsedPath);
    var t2 := Transform(c.keyword, c.htmlPath, c.parsedPath, c.transformedPath);
    var t3 := Root(c);
    FreshPending(c);
    RootChain(c);
    var e1 := {c.htmlPath};
    assert [t0, t1, t2, t3][1..] == [t1, t2, t3];
    assert [t1, t2, t3][1..] == [t2, t3];
    assert [] + [t0] == [t0] && [t0] + [t1] == [t0, t1];
    assert Execute([t2, t3], e1, [t0, t1], run) == Run(e1, [t0, t1], Unfulfilled(t2));
    assert Execute([t1, t2, t3], e1, [t0], run) == Execute([t2, t3], e1, [t0, t1], run);
    var p := [t0, t1, t2, t3];
    assert Pending(t3, {}) == p;
    assert Execute(p, {}, [], run) == Execute(p[1..], {} + {Output(t0)}, [] + [t0], run);
    assert {} + {Output(t0)} == e1;
    assert Build(t3, {}, run) == Execute([t1, t2, t3], e1, [t0], run);
  }

  /** Under an admissible runner, a build fails only by a raise, or by Transform after a silent Parse. */
  lemma {:induction false} FailureCauses(pending: seq<Task>, existing: set<string>, log: seq<Task>, run: Task -> Outcome)
    requires Admissible(run)
    requires forall i :: 0 < i < |pending| ==> Requires(pending[i]) == Some(pending[i - 1])
    requires pending != [] && Input(pending[0]).Some? ==> Input(pending[0]).value in existing
    decreases |pending|
    ensures var r := Execute(pending, existing, log, run);
      r.status.Unfulfilled? ==> r.status.blocked.Transform? && run(Requires(r.status.blocked).value) == Silent
  {
    if pending != [] {
      var t := pending[0];
      if |pending| > 1 {
        assert Requires(pending[1]) == Some(t);
        assert Input(pending[1]) == Some(Output(t));
        assert forall i :: 0 < i < |pending[1..]| ==> Requires(pending[1..][i]) == Some(pending[1..][i - 1]);
        match run(t)
        case Raised =>
        case Silent =>
          if Output(t) in existing {
            FailureCauses(pending[1..], existing, log + [t], run);
          } else {
            assert t.Parse?;
            assert Requires(pending[1]).value == t;
          }
        case Wrote =>
          FailureCauses(pending[1..], existing + {Output(t)}, log + [t], run);
      }
    }
  }

  /** Consecutive pending tasks are linked by `requires()`, as they are along the chain. */
  lemma PendingLinks(t: Task, existing: set<string>)
    ensures forall i :: 0 < i < |Pending(t, existing)| ==> Requires(Pending(t, existing)[i]) == Some(Pending(t, existing)[i - 1])
  {
    PendingIsChainSuffix(t, existing);
    ChainLinks(t);
    SuffixKeepsLinks(Pending(t, existing), Chain(t));
  }

  lemma SuffixKeepsLinks(p: seq<Task>, c: seq<Task>)
    requires IsSuffix(p, c)
    requires forall i :: 0 < i < |c| ==> Requires(c[i]) == Some(c[i - 1])
    ensures forall i :: 0 < i < |p| ==> Requires(p[i]) == Some(p[i - 1])
  {
    var k := |c| - |p|;
    forall i | 0 < i < |p|
      ensures Requires(p[i]) == Some(p[i - 1])
    {
      assert p[i] == c[k + i] && p[i - 1] == c[k + i - 1];
    }
  }

  /** Under an admissible runner, a build of any task blocks only at a Transform whose Parse returned without writing. */
  lemma BuildFailureCauses(t: Task, existing: set<string>, run: Task -> Outcome)
    requires Admissible(run)
    ensures Build(t, existing, run).status.Unfulfilled? ==>
      Build(t, existing, run).status.blocked.Transform? && run(Requires(Build(t, existing, run).status.blocked).value) == Silent
  {
    PendingLinks(t, existing);
    PendingFirstInput(t, existing);
    FailureCauses(Pending(t, existing), existing, [], run);
  }

  // ---------------------------------------------------------------- the working directory

  /** The scheduler's walk: up `requires()` from `t` until a task is complete or Scrape is passed. */
  method Schedule(t: Task, existing: set<string>) returns (pending: seq<Task>)
    ensures pending == Pending(t, existing)
  {
    pending := [];
    var cur: Option<Task> := Some(t);
    while cur.Some? && Output(cur.value) !in existing
      invariant cur.Some? ==> Pending(t, existing) == Pending(cur.value, existing) + pending
      invariant cur.None? ==> Pending(t, existing) == pending
      decreases if cur.Some? then Depth(cur.value) + 1 else 0
    {
      pending := [cur.value] + pending;
      cur := Requires(cur.value);
    }
  }

  /** One step of the worker, as the loop of `Workspace.Build` takes it. */
  lemma ExecuteStep(pending: seq<Task>, existing: set<string>, log: seq<Task>, run: Task -> Outcome)
    requires pending != []
    ensures var t := pending[0]; var r := Execute(pending, existing, log, run);
      if Input(t).Some? && Input(t).value !in existing then r == Run(existing, log, Unfulfilled(t))
      else if run(t) == Raised then r == Run(existing, log + [t], TaskFailed(t))
      else if run(t) == Silent then r == Execute(pending[1..], existing, log + [t], run)
      else r == Execute(pending[1..], existing + {Output(t)}, log + [t], run)
  {
  }

  /** The artifacts on disk and the tasks run so far, updated by each build. */
  class Workspace {
    var existing: set<string>
    var log: seq<Task>

    constructor(files: set<string>)
      ensures existing == files && log == []
    {
      existing := files;
      log := [];
    }

    /** `luigi.build([t])` with a local scheduler: schedule, then run the pending tasks in order. */
    method Build(t: Task, run: Task -> Outcome) returns (status: Status)
      modifies this
      ensures Run(existing, log, status) == Execute(Pending(t, old(existing)), old(existing), old(log), run)
    {
      var pending := Schedule(t, existing);
      var i := 0;
      while i < |pending|
        invariant i <= |pending|
        invariant Execute(pending[i..], existing, log, run) == Execute(pending, old(existing), old(log), run)
        decreases |pending| - i
      {
        var task := pending[i];
        assert pending[i..][0] == task && pending[i..][1..] == pending[i + 1..];
        ExecuteStep(pending[i..], existing, log, run);
        var input := Input(task);
        if input.Some? && input.value !in existing {
          return Unfulfilled(task);
        }
        var outcome := run(task);
        log := log + [task];
        if outcome == Raised {
          return TaskFailed(task);
        }
        if outcome == Wrote {
          existing := existing + {Output(task)};
        }
        i := i + 1;
      }
      status := Succeeded;
    }
  }
}

=== FILE: text.dfy ===
/**
 * The parts of Python's `str` and `re` that the pipeline relies on, over
 * `seq<char>`: `strip`, `lower`, `in`, `split(sep, 1)`, `replace(pat, '')`,
 * and the leftmost matches of `\d+` and `\d+[.\d]*`.
 */
module Text {
  import opened Wrappers

  /** Python's `str.isspace()` for one character. */
  predicate IsSpace(c: char) {
    c == ' ' || ('\t' <= c <= '\r') || ('\U{1c}' <= c <= '\U{1f}')
    || c == '\U{85}' || c == '\U{a0}' || c == '\U{1680}'
    || ('\U{2000}' <= c <= '\U{200a}') || c == '\U{2028}' || c == '\U{2029}'
    || c == '\U{202f}' || c == '\U{205f}' || c == '\U{3000}'
  }

  /** Matches the regular-expression class `\d` over ASCII digits. */
  predicate IsDigit(c: char) {
    '0' <= c <= '9'
  }

  predicate AllDigits(s: string) {
    forall i :: 0 <= i < |s| ==> IsDigit(s[i])
  }

  predicate HasDigit(s: string) {
    exists i :: 0 <= i < |s| && IsDigit(s[i])
  }

  predicate NoSpace(s: string) {
    forall i :: 0 <= i < |s| ==> !IsSpace(s[i])
  }

  /** `s.lstrip()` */
  function StripLeft(s: string): (r: string)
    ensures |r| <= |s| && r == s[|s| - |r|..]
    ensures r == [] || !IsSpace(r[0])
    ensures forall i :: 0 <= i < |s| - |r| ==> IsSpace(s[i])
  {
    if s != [] && IsSpace(s[0]) then StripLeft(s[1..]) else s
  }

  /** `s.rstrip()` */
  function StripRight(s: string): (r: string)
    ensures |r| <= |s| && r == s[..|r|]
    ensures r == [] || !IsSpace(r[|r| - 1])
    ensures forall i :: |r| <= i < |s| ==> IsSpace(s[i])
  {
    if s != [] && IsSpace(s[|s| - 1]) then StripRight(s[..|s| - 1]) else s
  }

  /** Neither starts nor ends with whitespace. */
  predicate Stripped(s: string) {
    s == [] || (!IsSpace(s[0]) && !IsSpace(s[|s| - 1]))
  }

  /** Joining two texts without whitespace at their ends gives another such text. */
  lemma StrippedConcat(x: string, y: string)
    requires Stripped(x) && Stripped(y)
    ensures Stripped(x + y)
  {
    if x != [] && y != [] {
      assert (x + y)[0] == x[0] && (x + y)[|x + y| - 1] == y[|y| - 1];
    } else if x == [] {
      assert x + y == y;
    } else {
      assert x + y == x;
    }
  }

  /** `s.strip()`: the longest factor of s that neither starts nor ends with whitespace. */
  function Strip(s: string): (r: string)
    ensures |r| <= |s|
    ensures Stripped(r)
  {
    StripRight(StripLeft(s))
  }

  lemma StripUnchanged(s: string)
    requires Stripped(s)
    ensures Strip(s) == s
  {
  }

  function LowerChar(c: char): char {
    if 'A' <= c <= 'Z' then (c as int + 32) as char else c
  }

  /** `s.lower()`, restricted to the ASCII letters. */
  function Lower(s: string): (r: string)
    ensures |r| == |s|
    ensures forall i :: 0 <= i < |s| ==> r[i] == LowerChar(s[i])
  {
    seq(|s|, i requires 0 <= i < |s| => LowerChar(s[i]))
  }

  predicate OccursAt(s: string, sub: string, k: int) {
    0 <= k && k + |sub| <= |s| && s[k..k + |sub|] == sub
  }

  /** Index of the first occurrence of `sub` in `s` at or after `from`, as `s.find(sub, from)`. */
  function FindFrom(s: string, sub: string, from: nat): (r: Option<nat>)
    decreases |s| - from
    ensures r.Some? ==> from <= r.value && OccursAt(s, sub, r.value)
    ensures r.Some? ==> forall j :: from <= j < r.value ==> !OccursAt(s, sub, j)
    ensures r.None? ==> forall j :: from <= j ==> !OccursAt(s, sub, j)
  {
    if from + |sub| > |s| then None
    else if s[from..from + |sub|] == sub then Some(from)
    else FindFrom(s, sub, from + 1)
  }

  function Find(s: string, sub: string): Option<nat> {
    FindFrom(s, sub, 0)
  }

  /** Python's `sub in s`. */
  predicate Contains(s: string, sub: string) {
    Find(s, sub).Some?
  }

  lemma ContainsIff(s: string, sub: string)
    ensures Contains(s, sub) <==> exists k :: OccursAt(s, sub, k)
  {
  }

  lemma CharNotContained(s: string, c: char)
    requires c !in s
    ensures !Contains(s, [c])
  {
    ContainsIff(s, [c]);
    forall k | 0 <= k < |s| ensures !OccursAt(s, [c], k) {
      assert s[k..k + 1] == [s[k]];
    }
  }

  /** A text lacking one of the characters of `sub` does not contain `sub`. */
  lemma MissingCharNotContained(s: string, sub: string, i: nat)
    requires i < |sub| && sub[i] !in s
    ensures !Contains(s, sub)
  {
    ContainsIff(s, sub);
    forall k | 0 <= k && k + |sub| <= |s| ensures !OccursAt(s, sub, k) {
      assert s[k..k + |sub|][i] == s[k + i];
    }
  }

  /** A text shorter than `sub` does not contain it. */
  lemma ShortNotContained(s: string, sub: string)
    requires |s| < |sub|
    ensures !Contains(s, sub)
  {
    ContainsIff(s, sub);
  }

  /**
   * `left, right = s.split(sep, 1)`: None when the unpacking raises because
   * `sep` does not occur; otherwise `s` cut at the first occurrence of `sep`.
   */
  function SplitOnce(s: string, sep: string): (r: Option<(string, string)>)
    requires |sep| > 0
    ensures r.Some? <==> Contains(s, sep)
    ensures r.Some? ==> s == r.value.0 + sep + r.value.1 && !Contains(r.value.0, sep)
    ensures r.Some? ==> forall j :: 0 <= j < |r.value.0| ==> !OccursAt(s, sep, j)
  {
    match Find(s, sep)
    case None => None
    case Some(k) =>
      var left := s[..k];
      assert s == left + sep + s[k + |sep|..];
      assert forall j :: OccursAt(left, sep, j) ==> OccursAt(s, sep, j) && j < k by {
        forall j | OccursAt(left, sep, j) ensures OccursAt(s, sep, j) && j < k {
          assert s[j..j + |sep|] == left[j..j + |sep|];
        }
      }
      Some((left, s[k + |sep|..]))
  }

  /** `s.replace(pat, '')`: removes the non-overlapping occurrences of `pat`, scanning left to right. */
  function RemoveAll(s: string, pat: string): (r: string)
    requires |pat| > 0
    decreases |s|
    ensures |r| <= |s|
    ensures forall c :: c in r ==> c in s
  {
    if |s| < |pat| then s
    else if s[..|pat|] == pat then RemoveAll(s[|pat|..], pat)
    else [s[0]] + RemoveAll(s[1..], pat)
  }

  /** `s.replace(a, b)` for single characters `a` and `b`. */
  function ReplaceChar(s: string, a: char, b: char): (r: string)
    ensures |r| == |s|
    ensures forall i :: 0 <= i < |s| ==> r[i] == (if s[i] == a then b else s[i])
  {
    seq(|s|, i requires 0 <= i < |s| => if s[i] == a then b else s[i])
  }

  /** Characters of a regular-expression run: `\d`, or `[.\d]` when `dots` holds. */
  predicate InRun(c: char, dots: bool) {
    IsDigit(c) || (dots && c == '.')
  }

  /** End of the greedy run of `InRun` characters starting at `i`. */
  function RunEnd(s: string, i: nat, dots: bool): (j: nat)
    requires i <= |s|
    decreases |s| - i
    ensures i <= j <= |s|
    ensures forall k :: i <= k < j ==> InRun(s[k], dots)
    ensures j < |s| ==> !InRun(s[j], dots)
  {
    if i < |s| && InRun(s[i], dots) then RunEnd(s, i + 1, dots) else i
  }

  /** Index of the first digit of `s` at or after `from`. */
  function FirstDigitFrom(s: string, from: nat): (r: Option<nat>)
    decreases |s| - from
    ensures r.Some? ==> from <= r.value < |s| && IsDigit(s[r.value])
    ensures r.Some? ==> forall j :: from <= j < r.value ==> !IsDigit(s[j])
    ensures r.None? ==> forall j :: from <= j < |s| ==> !IsDigit(s[j])
  {
    if from >= |s| then None
    else if IsDigit(s[from]) then Some(from)
    else FirstDigitFrom(s, from + 1)
  }

  /**
   * The leftmost match of `\d+` (dots = false) or of `\d+[.\d]*` (dots = true):
   * both start at the first digit and, being greedy, take the longest run.
   */
  function FirstRun(s: string, dots: bool): (r: Option<string>)
    ensures r.Some? <==> HasDigit(s)
    ensures r.Some? ==> |r.value| > 0 && IsDigit(r.value[0])
    ensures r.Some? ==> forall i :: 0 <= i < |r.value| ==> InRun(r.value[i], dots)
  {
    match FirstDigitFrom(s, 0)
    case None => None
    case Some(k) => Some(s[k..RunEnd(s, k, dots)])
  }

  function DigitValue(c: char): nat
    requires IsDigit(c)
  {
    c as int - '0' as int
  }

  /** `int(ds)` for a string of ASCII digits (the empty string counts 0). */
  function DecimalValue(ds: string): nat
    requires AllDigits(ds)
  {
    if ds == [] then 0 else DecimalValue(ds[..|ds| - 1]) * 10 + DigitValue(ds[|ds| - 1])
  }

  function DigitChar(d: nat): (c: char)
    requires d < 10
    ensures IsDigit(c) && DigitValue(c) == d
  {
    ('0' as int + d) as char
  }

  /** `str(n)` for a natural number. */
  function Decimal(n: nat): (r: string)
    ensures |r| > 0 && AllDigits(r)
  {
    if n < 10 then [DigitChar(n)] else Decimal(n / 10) + [DigitChar(n % 10)]
  }

  lemma {:induction false} DecimalRoundTrip(n: nat)
    ensures DecimalValue(Decimal(n)) == n
  {
    if n >= 10 {
      DecimalRoundTrip(n / 10);
      var s := Decimal(n);
      assert s[..|s| - 1] == Decimal(n / 10);
    }
  }

  function Pow10(k: nat): (p: nat)
    ensures p > 0
  {
    if k == 0 then 1 else 10 * Pow10(k - 1)
  }

  lemma {:induction false} DecimalValueAppend(a: string, b: string)
    requires AllDigits(a) && AllDigits(b)
    ensures AllDigits(a + b)
    ensures DecimalValue(a + b) == DecimalValue(a) * Pow10(|b|) + DecimalValue(b)
    decreases |b|
  {
    var ab := a + b;
    if b == [] {
      assert ab == a;
    } else {
      var b' := b[..|b| - 1];
      assert ab[..|ab| - 1] == a + b';
      assert ab[|ab| - 1] == b[|b| - 1];
      DecimalValueAppend(a, b');
      var x, p, y, d := DecimalValue(a), Pow10(|b'|), DecimalValue(b'), DigitValue(b[|b| - 1]);
      assert DecimalValue(ab) == DecimalValue(a + b') * 10 + d;
      assert DecimalValue(b) == y * 10 + d;
      assert Pow10(|b|) == 10 * p;
      Distribute(x, p, y, d);
    }
  }

  lemma Distribute(x: int, p: int, y: int, d: int)
    ensures (x * p + y) * 10 + d == x * (10 * p) + (y * 10 + d)
  {
  }

  lemma {:induction false} RemoveAllConcat(a: string, b: string, c: char)
    ensures RemoveAll(a + b, [c]) == RemoveAll(a, [c]) + RemoveAll(b, [c])
    decreases |a|
  {
    if a != [] {
      assert (a + b)[1..] == a[1..] + b;
      RemoveAllConcat(a[1..], b, c);
    } else {
      assert a + b == b;
    }
  }

  /** Removing a single character deletes every copy of it and keeps every other character. */
  lemma {:induction false} RemoveAllChar(s: string, c: char)
    ensures c !in RemoveAll(s, [c])
    ensures forall d :: d != c ==> (d in s <==> d in RemoveAll(s, [c]))
    decreases |s|
  {
    if s != [] {
      RemoveAllChar(s[1..], c);
      assert s == [s[0]] + s[1..];
    }
  }

  /** Removing a single character takes out exactly its copies, so the other characters keep their counts. */
  lemma {:induction false} RemoveAllCharCount(s: string, c: char)
    ensures multiset(RemoveAll(s, [c])) == multiset(s)[c := 0]
    decreases |s|
  {
    if s != [] {
      RemoveAllCharCount(s[1..], c);
      assert s == [s[0]] + s[1..];
      assert multiset(s) == multiset{s[0]} + multiset(s[1..]);
      if s[0] == c {
        assert s[..1] == [c];
      } else {
        assert RemoveAll(s, [c]) == [s[0]] + RemoveAll(s[1..], [c]);
      }
    }
  }

  /** `s.strip()` keeps exactly the characters of `s` other than the whitespace it drops at either end. */
  lemma StripKeepsChars(s: string)
    ensures forall c :: c in Strip(s) ==> c in s
    ensures forall c :: c in s && !IsSpace(c) ==> c in Strip(s)
  {
    StripLeftKeeps(s);
    StripRightKeeps(StripLeft(s));
  }

  lemma StripLeftKeeps(s: string)
    ensures forall c :: c in StripLeft(s) ==> c in s
    ensures forall c :: c in s && !IsSpace(c) ==> c in StripLeft(s)
  {
    var l := StripLeft(s);
    var k := |s| - |l|;
    assert l == s[k..];
    forall c | c in s && !IsSpace(c)
      ensures c in l
    {
      var i :| 0 <= i < |s| && s[i] == c;
      assert k <= i;
      assert l[i - k] == s[i];
    }
  }

  lemma StripRightKeeps(s: string)
    ensures forall c :: c in StripRight(s) ==> c in s
    ensures forall c :: c in s && !IsSpace(c) ==> c in StripRight(s)
  {
    var r := StripRight(s);
    forall c | c in s && !IsSpace(c)
      ensures c in r
    {
      var i :| 0 <= i < |s| && s[i] == c;
      assert r[i] == c;
    }
  }

  /** `s.replace(pat, '')` keeps every character that does not occur in `pat`. */
  lemma {:induction false} RemoveAllKeeps(s: string, pat: string)
    requires |pat| > 0
    decreases |s|
    ensures forall c :: c in s && c !in pat ==> c in RemoveAll(s, pat)
  {
    if |s| >= |pat| {
      if s[..|pat|] == pat {
        RemoveAllKeeps(s[|pat|..], pat);
        forall c | c in s && c !in pat
          ensures c in s[|pat|..]
        {
          var i :| 0 <= i < |s| && s[i] == c;
          assert i >= |pat|;
          assert s[|pat|..][i - |pat|] == c;
        }
      } else {
        RemoveAllKeeps(s[1..], pat);
        assert s == [s[0]] + s[1..];
      }
    }
  }

  lemma {:induction false} RemoveAllAbsent(s: string, pat: string)
    requires |pat| > 0 && pat[0] !in s
    ensures RemoveAll(s, pat) == s
    decreases |s|
  {
    if |s| >= |pat| {
      assert s[..|pat|][0] == s[0];
      RemoveAllAbsent(s[1..], pat);
      assert s == [s[0]] + s[1..];
    }
  }

  lemma {:induction false} RemoveAllBeforeSuffix(s: string, pat: string)
    requires |pat| > 0 && pat[0] !in s
    ensures RemoveAll(s + pat, pat) == s
    decreases |s|
  {
    if s == [] {
      assert s + pat == pat && pat[|pat|..] == [];
    } else {
      var t := s + pat;
      assert t[..|pat|][0] == s[0];
      assert t[1..] == s[1..] + pat;
      RemoveAllBeforeSuffix(s[1..], pat);
      assert s == [s[0]] + s[1..];
    }
  }

  predicate NoUpper(s: string) {
    forall i :: 0 <= i < |s| ==> !('A' <= s[i] <= 'Z')
  }

  lemma NoUpperConcat(a: string, b: string)
    ensures NoUpper(a + b) <==> NoUpper(a) && NoUpper(b)
  {
    if NoUpper(a) && NoUpper(b) {
      forall i | 0 <= i < |a + b| ensures !('A' <= (a + b)[i] <= 'Z') {
        if i >= |a| { assert (a + b)[i] == b[i - |a|]; }
      }
    }
    if NoUpper(a + b) {
      forall i | 0 <= i < |a| ensures !('A' <= a[i] <= 'Z') {
        assert (a + b)[i] == a[i];
      }
      forall i | 0 <= i < |b| ensures !('A' <= b[i] <= 'Z') {
        assert (a + b)[i + |a|] == b[i];
      }
    }
  }

  lemma LowerUnchanged(s: string)
    requires NoUpper(s)
    ensures Lower(s) == s
  {
  }

  /** A text of lower-case ASCII letters and spaces has no upper-case letter and no digit. */
  lemma PlainWords(s: string)
    requires forall c :: c in s ==> ('a' <= c <= 'z' || c == ' ')
    ensures NoUpper(s) && !HasDigit(s)
  {
    forall i | 0 <= i < |s| ensures 'a' <= s[i] <= 'z' || s[i] == ' ' {
      assert s[i] in s;
    }
  }

  /** A leading whitespace character makes no difference to `strip()`. */
  lemma StripLeadingSpace(s: string)
    requires |s| > 0 && IsSpace(s[0])
    ensures Strip(s) == Strip(s[1..])
  {
    assert StripLeft(s) == StripLeft(s[1..]);
  }

  /** Lower-casing keeps every occurrence of a pattern that has no upper-case letter. */
  lemma LowerKeepsOccurrence(s: string, sub: string, k: int)
    requires Lower(sub) == sub && OccursAt(s, sub, k)
    ensures OccursAt(Lower(s), sub, k)
  {
    var l := Lower(s);
    assert l[k..k + |sub|] == Lower(s[k..k + |sub|]);
  }

  /** The leftmost run is exactly the run `d` written between a digit-free prefix and a stopping suffix. */
  lemma FirstRunOf(p: string, d: string, q: string, dots: bool)
    requires !HasDigit(p)
    requires |d| > 0 && IsDigit(d[0]) && forall i :: 0 <= i < |d| ==> InRun(d[i], dots)
    requires q == [] || !InRun(q[0], dots)
    ensures FirstRun(p + d + q, dots) == Some(d)
  {
    var s := p + d + q;
    assert s[|p|] == d[0];
    assert forall j :: 0 <= j < |p| ==> s[j] == p[j];
    assert forall j :: |p| <= j < |p| + |d| ==> s[j] == d[j - |p|];
    assert |p| + |d| < |s| ==> s[|p| + |d|] == q[0];
    assert s[|p|..|p| + |d|] == d;
  }
}

=== FILE: wrappers.dfy ===
/** Option and Result, the failure-carrying values used across the model. */
module Wrappers {

  /** A value that may be missing; for a table cell, None stands for pandas' NaN. */
  datatype Option<+T> = None | Some(value: T)

  /** The outcome of an operation that can raise: Failure carries the kind of exception. */
  datatype Result<+T, +E> = Success(value: T) | Failure(error: E)
}
